=== FILE: README.md ===
# Channel service model

A Dafny model of pomelo's channel service (`lib/common/service/channelService.js`),
the part of a game server that groups users into named channels and pushes
messages to them across a cluster of frontend servers.

The model covers:

- **Channel**. This is a named set of members. `groups` maps each frontend server key to the ordered
  list of user ids on that server. `records` maps each user key to its `{sid, uid}` record.
  `userAmount` is a counter, and the lifecycle runs INITED → DESTROYED.
  The model covers `add`, `leave`, `getUserAmount`, `getMembers`, `getMember`, `destroy` and
  `pushMessage`, plus the helpers `add` and `deleteFrom` that act on `groups`.
- **Registry**. This is the service's map from channel name to channel: `createChannel`, `getChannel`,
  `destroyChannel`.
- **Store encoding**. `genKey` gives the channel-set key and each channel's member-set key.
  `genValue` gives the member entry `"sid:uid"`. The model also has the decoding that restore applies
  to both.
- **Dispatch**. `pushMessageByUids` groups receivers by server. `sendMessageByGroup` and
  `broadcast` plan one call per server key. A call goes direct when the key is the local
  server and over RPC otherwise. The outcomes collected by the count-down latch are folded into
  the single reply the caller's callback receives.
- **Restore at start** (`start` / `restoreChannel`). Channels and their members are rebuilt from the
  store. The model has both the behaviour as written and the behaviour it evidently intends (see Findings).

JavaScript semantics are written out explicitly:
- Ids are `JsValue`s (`undefined`, `null`, safe integer, string) with JS falsiness (`Falsy`).
- Object keys are the ids' string conversion (`ToJsString`), so `groups[1]` and `groups["1"]` are the
  same list.
- `===` is structural equality of `JsValue`.
- The order a `for ... in` loop visits object keys is a parameter (`order`), constrained to list
  every key exactly once. Every property about `getMembers` and dispatch holds for every such order.

Store writes are fire-and-forget in the source. Here each operation returns the list of writes it
issues (`StoreOp`), which is empty when no store is configured.

Asynchrony is modelled through two parameters:
- The environment's answer for each planned branch is a parameter (`answers`).
- The latch's completion order is a parameter (`arrivals`): any rearrangement of the branch outcomes.

The reply is proved to be the same for every completion order. The one exception is the order of
the concatenated fail list, whose contents as a bag are the same for every order.

Files, one module each:
- `js_values.dfy` (`JsValues`): JS values, falsiness, string conversion, `split` and `slice`.
- `store_keys.dfy` (`StoreKeys`): configuration, store operations, key and value encodings.
- `groups.dfy` (`Groups`): the `groups` map, the `add` and `deleteFrom` helpers, and the bag of
  entries.
- `dispatch.dfy` (`Dispatch`): push and broadcast planning, and latch aggregation.
- `channels.dfy` (`Channels`): the channel, its operations and invariants.
- `registry.dfy` (`Registry`): the service registry.
- `restore.dfy` (`Restore`): restore at start.

## Model

| member | source | states |
|---|---|---|
| JsValues.Split | lib/common/service/channelService.js:488 | `split` gives at least one part, no part contains the separator, and joining the parts with the separator gives back the string |
| JsValues.SplitAtFirstSeparator | lib/common/service/channelService.js:488 | a string cut at its first separator splits into that first part followed by the split of the rest |
| JsValues.Slice | lib/common/service/channelService.js:503 | `slice(start)` is the suffix after the first `start` characters, and is empty past the end |
| StoreKeys.ChannelNameRoundTrip | lib/common/service/channelService.js:559-565 | the name restore slices off a channel's member-set key is the name the key was generated from, for every name |
| StoreKeys.DecodeMember | lib/common/service/channelService.js:488-490 | a restored entry's server id is the first piece of `split(':')`, the text before any colon; its user id is the second piece, which ends at the next colon, or `undefined` exactly when there is no colon |
| StoreKeys.GenValueSplits | lib/common/service/channelService.js:567-569 | a member entry of colon-free ids splits into exactly the two ids' strings |
| StoreKeys.DecodeGenValue | lib/common/service/channelService.js:567-569 | decoding a member entry gives back the two ids as strings; string ids without a colon round-trip exactly |
| StoreKeys.NumericUidRestoresAsString | lib/common/service/channelService.js:488-490 | a numeric user id comes back from the store as a string (`42` becomes `"42"`), so it is no longer `===` to the original |
| Groups.AddToGroup | lib/common/service/channelService.js:357-371 | `add` succeeds iff the server id is truthy; on success it appends the user id to that server's list, creating the list, and leaves every other list alone; on failure nothing changes |
| Groups.IndexOf | lib/common/service/channelService.js:381-386 | the scan finds the first position holding an element `===` the user id, or reports none exactly when there is none |
| Groups.RemoveAt | lib/common/service/channelService.js:383 | `splice(i, 1)` shortens the list by one: the elements before `i` keep their places, the ones after move down by one, and exactly one copy of the element at `i` is gone |
| Groups.RemoveAtKeepsOthers | lib/common/service/channelService.js:383 | removing one position keeps every other value that was listed |
| Groups.DeleteFrom | lib/common/service/channelService.js:376-389 | `deleteFrom` removes something iff both ids are truthy, the list exists, and it holds the user id; then exactly the first occurrence is removed; otherwise the list is unchanged |
| Groups.FlattenIsBag | lib/common/service/channelService.js:291-301 | in whatever order the keys are visited, the concatenated lists hold exactly the entries of all lists |
| Dispatch.PlanGroups | lib/common/service/channelService.js:445-466 | one branch per key in visiting order; a branch is skipped iff its list is empty; an invoked branch targets its key, carries that key's list, and goes direct iff the key is the local server id |
| Dispatch.PlanCoversGroups | lib/common/service/channelService.js:457-466 | the planned calls carry every entry of `groups` exactly once, and every key is targeted by exactly one branch |
| Dispatch.PlannedUidsAreFlatten | lib/common/service/channelService.js:457-466 | the user ids the push calls carry, in plan order, are the lists concatenated in the key visiting order |
| Dispatch.PlanBroadcast | lib/common/service/channelService.js:179-203 | one broadcast call per listed server, in list order, going direct iff the server id is the local one, carrying no user ids |
| Dispatch.Effective | lib/common/service/channelService.js:457-466 | a skipped branch (empty list) reports success with no fails on the next tick; an invoked branch reports what its server answered |
| Dispatch.ConcatFailsAppend | lib/common/service/channelService.js:433-435 | accumulating fail lists over two runs of outcomes is the concatenation of the two accumulations |
| Dispatch.Collect | lib/common/service/channelService.js:418-439 | folding outcomes in arrival order sets the success flag iff some outcome succeeded, and accumulates exactly the fail lists of the successes, in arrival order |
| Dispatch.AnySuccessOfRearrangement | lib/common/service/channelService.js:418-424 | whether any branch succeeded does not depend on the order the outcomes arrive |
| Dispatch.RemoveMatching | lib/common/service/channelService.js:433-435 | taking one outcome out of two rearrangements of each other at positions that hold it leaves two rearrangements |
| Dispatch.FailBagOfRearrangement | lib/common/service/channelService.js:433-435 | the ids in the accumulated fail list, counted with multiplicity, do not depend on the order the outcomes arrive |
| Dispatch.NoSuccessMeansAllFailed | lib/common/service/channelService.js:418-422 | no outcome succeeded iff every outcome is an error |
| Dispatch.SendByGroup | lib/common/service/channelService.js:402-467 | an empty map invokes the callback with no arguments and makes no call; otherwise the reply is the error "all uids push message fail" iff every key has a non-empty list and every call failed; in any other case it is success with the concatenated fail lists, which as a bag are those of the plan order |
| Dispatch.BroadcastTo | lib/common/service/channelService.js:142-204 | no server list, or an empty one, invokes the callback with no arguments and makes no call; otherwise one call per server, and the reply is the error "broadcast fails" iff every call failed, else a null error with no fail list |
| Dispatch.UidsOnSnoc | lib/common/service/channelService.js:122-125 | appending one receiver extends the ids routed to its server key by that user id and leaves every other key alone |
| Dispatch.UidsOnHas | lib/common/service/channelService.js:122-125 | a receiver with a truthy server id is among the ids routed to that server key |
| Dispatch.UidsOnNone | lib/common/service/channelService.js:122-125 | when every server id is falsy, no key gets any id |
| Dispatch.GroupByServer | lib/common/service/channelService.js:121-125 | the grouped map has no empty list, and under each key holds exactly the ids of the receivers routed there, in receiver order |
| Dispatch.AllDroppedIffNoGroups | lib/common/service/channelService.js:121-125 | grouping gives an empty map iff every receiver's server id is falsy |
| Dispatch.PrepareUids | lib/common/service/channelService.js:117-125 | an absent or empty receiver list is rejected with "uids should not be empty"; any other is grouped by server, receiver by receiver |
| Dispatch.PushMessageByUids | lib/common/service/channelService.js:103-128 | a rejected list makes no call and replies with the error; a list whose server ids are all falsy replies with no arguments and makes no call; otherwise the calls are exactly the plan for the grouped map, and they carry every routed receiver exactly once; when some receiver is routed, the reply is the error "all uids push message fail" iff every call failed, and otherwise a success whose fail list holds exactly the ids the successful calls reported, counted with multiplicity |
| Dispatch.NothingSkipped | lib/common/service/channelService.js:457-466 | when no list is empty, no branch is skipped: the outcomes the latch collects are exactly the calls' answers |
| Dispatch.SendWithoutSkipsFails | lib/common/service/channelService.js:419-439 | when no list is empty and some call succeeds, the reply's fail list holds exactly the ids every call reported, counted with multiplicity |
| Dispatch.SendWithoutSkips | lib/common/service/channelService.js:402-467 | when no list is empty, the reply is the error iff every call failed, and otherwise a success carrying the reported fail ids |
| Dispatch.TwoReceiversGroups | lib/common/service/channelService.js:121-125 | two receivers on servers `A` and `B` group into one single-id list per server |
| Dispatch.TwoServerScenario | lib/common/service/channelService.js:103-128 | for those two receivers, one failing server and one that succeeds with no fails give two calls and a success reply with an empty fail list, in either arrival order |
| Dispatch.BroadcastThreeServers | lib/common/service/channelService.js:155-164 | over three servers, three failures give "broadcast fails", and a single success among them gives success |
| Channels.Add | lib/common/service/channelService.js:231-246 | a destroyed channel returns false, changes nothing and writes nothing; an INITED channel accepts iff the server id is truthy (the user id is never checked); on acceptance the id is appended to its server's list, the record set under the user's key, and the counter raised by one; the member entry is written to the store whether or not the add succeeded |
| Channels.Leave | lib/common/service/channelService.js:255-273 | a falsy id changes nothing and writes nothing; otherwise the store removal is always issued; the call succeeds iff the user id is in that server's list, and it then removes the first occurrence, deletes the record, and lowers the counter, never below 0; a list left empty is dropped; when the user id is not listed, an existing empty list under that key is still dropped and nothing else changes; the state is not checked |
| Channels.GetMembers | lib/common/service/channelService.js:291-301 | `getMembers` returns every entry of every list exactly once, whatever the key visiting order |
| Channels.PushMessage | lib/common/service/channelService.js:329-348 | a channel that is not INITED makes no call and never invokes the callback; an INITED channel dispatches its groups, every member carried by exactly one call, and no branch is skipped when no list is empty |
| Channels.NewChannelWf | lib/common/service/channelService.js:213-223 | a new channel is INITED, empty, with counter 0, and satisfies the invariants |
| Channels.AddBag | lib/common/service/channelService.js:236-241 | `add` grows the bag of entries by the user id exactly when it succeeds |
| Channels.AddKeepsWf | lib/common/service/channelService.js:231-246 | `add` keeps the invariants: no empty list, every record backed by a list entry, and a counter no larger than the number of entries |
| Channels.LeaveBag | lib/common/service/channelService.js:261-271 | `leave` shrinks the bag of entries by the user id exactly when it succeeds, and it can only succeed for a user that is in the bag |
| Channels.LeaveKeepsRecordsBacked | lib/common/service/channelService.js:261-266 | after `leave`, every remaining record still names a server whose list holds that user |
| Channels.LeaveKeepsNoEmptyGroups | lib/common/service/channelService.js:261-271 | `leave` never leaves an empty list behind: a list it empties is dropped, and every other list is untouched |
| Channels.LeaveKeepsCount | lib/common/service/channelService.js:261-267 | `leave` keeps the counter no larger than the number of entries: it removes one entry exactly when it lowers the counter |
| Channels.LeaveKeepsWf | lib/common/service/channelService.js:255-273 | `leave` keeps the invariants |
| Channels.GetMemberIsListed | lib/common/service/channelService.js:309-311 | on a well-formed channel, `getMember` reports only a user still listed under the server its record names |
| Channels.UserAmountAtMostMembers | lib/common/service/channelService.js:280-282 | on a well-formed channel, `getUserAmount` never exceeds the number of entries `getMembers` returns |
| Channels.RunKeepsWf | lib/common/service/channelService.js:231-273 | any sequence of adds, leaves and destroys keeps the invariants |
| Channels.DestroyedIsFinal | lib/common/service/channelService.js:231-233 | DESTROYED is terminal: after any later operations the channel is still DESTROYED and rejects every add |
| Channels.AddThenLeave | lib/common/service/channelService.js:231-273 | after a successful add, `getMember` returns `{sid, uid}` and the count is one higher; leaving with the same pair then succeeds, `getMember` reports nothing, and the count and the bag of entries are back where they were |
| Channels.AddIsListed | lib/common/service/channelService.js:231-241 | an add with truthy ids on an INITED channel succeeds, makes the user leavable from that server, makes `getMember` return `{sid, uid}`, and raises the count by one |
| Channels.LeaveUnlists | lib/common/service/channelService.js:255-267 | a leave whose user is listed under that server succeeds, `getMember` then reports nothing, and the count drops by one unless it was 0 |
| Channels.ZeroUidCannotLeave | lib/common/service/channelService.js:256-258 | the user id 0 is accepted by `add` but refused by `leave`, so that member stays |
| Channels.LeaveClampsAtZero | lib/common/service/channelService.js:262-267 | a matching leave on a channel whose counter is 0 succeeds and keeps the counter at 0 |
| Registry.CreateChannel | lib/common/service/channelService.js:46-56 | a registered name returns its channel and changes and writes nothing; otherwise a fresh INITED channel is registered and its member-set key is added to the channel set |
| Registry.GetChannel | lib/common/service/channelService.js:66-73 | a registered name returns its channel; an absent name with a falsy `create` returns nothing and changes nothing; with a truthy `create` it is exactly `createChannel` |
| Registry.DestroyChannel | lib/common/service/channelService.js:81-88 | only that name leaves the registry, every other channel is untouched, and the channel-set entry removal and the member-set bulk removal are issued whether or not the name was registered |
| Registry.DestroyOwnChannel | lib/common/service/channelService.js:316-319 | `destroy` makes the channel DESTROYED and has exactly the registry effect and store writes of `destroyChannel` for its name |
| Registry.CreateIsIdempotent | lib/common/service/channelService.js:46-56 | creating the same name twice returns the first channel the second time, with no change and no store write |
| Registry.DestroyThenCreateIsFresh | lib/common/service/channelService.js:81-88 | a destroyed name created again gets an empty INITED channel |
| Registry.CreatedEntryNamesChannel | lib/common/service/channelService.js:53 | the channel-set entry written on creation is the one entry whose decoding gives back the channel's name |
| Restore.RestoreInsert | lib/common/service/channelService.js:487-496 | inserting a restored entry never changes the channel's name, state or counter |
| Restore.RestoreInsertIsAddWithoutCount | lib/common/service/channelService.js:493-496 | inserting a restored entry has exactly the in-memory effect of `Channel.add` with the decoded ids, except that the counter does not move |
| Restore.RestoreInsertKeepsWf | lib/common/service/channelService.js:493-496 | an inserted entry grows the bag by the decoded user id iff the decoded server id is truthy, and the invariants are kept |
| Restore.RestoreMembers | lib/common/service/channelService.js:486-497 | loading a member set leaves the counter, name and state alone, keeps the invariants, and grows the bag of entries by exactly the decoded user ids |
| Restore.LastRecordWins | lib/common/service/channelService.js:493-496 | when two restored entries name the same user id with truthy server ids, the record kept is the second entry's |
| Restore.RecordFollowsLastEntry | lib/common/service/channelService.js:486-496 | with `u` stored under `s1` and `s2`, the entry order decides whether the restored record names `s1` or `s2` |
| Restore.RestoredChannelCountsZero | lib/common/service/channelService.js:504 | a restored channel reports 0 users however many entries it holds |
| Restore.RestoreReplaysAdds | lib/common/service/channelService.js:486-497 | restoring the entries a run of adds wrote, every entry in write order, rebuilds the members and records those adds built, for string ids without a colon; only the counter is not rebuilt. The string condition matters: an add rejected for an `undefined`, `null` or `0` server id still writes its entry, and restore lists that user (Restore.RejectedAddIsRestored) |
| Restore.RejectedAddIsRestored | lib/common/service/channelService.js:236-243 | an add rejected for an `undefined`, `null` or `0` server id changes nothing in memory yet writes `"undefined:uid"`, `"null:uid"` or `"0:uid"`; restoring that entry lists the user under the truthy server key `"undefined"`, `"null"` or `"0"` |
| Restore.RestoreInsertListed | lib/common/service/channelService.js:488-496 | restoring one entry lists exactly what was listed before plus the user id the entry names under its server id, when that id is truthy |
| Restore.RestoreMembersListed | lib/common/service/channelService.js:486-497 | after a member-set load, a user id is listed under a server key iff it was listed there before or some entry of the load names it there |
| Restore.RestoreFromSetStore | lib/common/service/channelService.js:486-497 | when the store hands back any listing holding exactly the entries a run of adds wrote (each once, in any order), restore lists the same user ids under the same server ids as those adds did |
| Restore.NamesOfRoundTrip | lib/common/service/channelService.js:503 | for any list of channel names, reading back the channel-set entries `createChannel` wrote for them (`genKey(name)`, line 53) gives exactly those names, in the same order |
| Restore.CreateListed | lib/common/service/channelService.js:502-506 | every listed name gets a fresh channel, replacing whatever was registered there; unlisted names are untouched |
| Restore.FillListed | lib/common/service/channelService.js:484-506 | loading member sets keeps the registry's names, touches no unlisted channel, and changes no counter |
| Restore.FillListedRestoresEach | lib/common/service/channelService.js:484-506 | with distinct names, each listed channel ends up with exactly its own member set's entries |
| Restore.RestoreChannels | lib/common/service/channelService.js:469-511 | corrected restore: every listed channel is present and reports 0 users, and unlisted channels are untouched |
| Restore.RestoreChannelsRestoresEach | lib/common/service/channelService.js:484-506 | corrected restore with distinct names puts each member set's entries into its own fresh channel |
| Restore.RestoreAsWritten | lib/common/service/channelService.js:484-506 | restore as written: every loaded entry lands in the channel of the last listed entry, and every other listed channel stays empty |
| Restore.RestoreOneEntry | lib/common/service/channelService.js:488-496 | the entry `"s1:u1"` restores user `"u1"` under server `"s1"` |
| Restore.HoistedNameMisroutesMembers | lib/common/service/channelService.js:491 | with channels `a` and `b` and one member stored for `a`, restore as written leaves `a` empty and puts the member into `b` |
| Restore.CorrectedRestoreKeepsMembersApart | lib/common/service/channelService.js:491 | on the same input the corrected restore puts the member back into `a` and leaves `b` empty |
| Restore.TwoListedNames | lib/common/service/channelService.js:503 | the channel-set entries of `a` and `b` decode to the names `a` and `b` |
| Restore.Start | lib/common/service/channelService.js:469-511 | without a store the callback gets no arguments and nothing changes; a failed channel-set load passes its error on; an empty list gets no arguments; otherwise the callback gets no arguments, unlisted channels are untouched, every listed channel is created afresh with a counter of 0, and every loaded entry lands in the channel of the last listed name while the other listed channels stay empty |
| Restore.StartCorrected | lib/common/service/channelService.js:469-511 | the same replies as `start`, with the corrected restore: with distinct channel names, each listed channel holds exactly its own member set's entries, with a counter of 0 |

## Left out

- `pomelo.js` and `components/channel.js`, which wire up the application and the component, are not part of this model.
- RPC transport, the local `ChannelRemote` handler and the count-down latch's internals are not modelled. Each branch's answer is a parameter. The latch is "every outcome collected once, in some order", and the order is a parameter too.
- Logging is not modelled. `utils.invokeCallback`'s check that the callback is a function is assumed at line 331, where it makes the callback go uninvoked (Channels.PushMessage's `NotInvoked`). Everywhere else the callback is taken to be a function.
- Route, message and option objects are passed through untouched and are not modelled. That covers the option normalisation at lines 191-198 and 441-443, and the broadcast filter.
- The positional-argument sniffing in `pushMessageByUids` and `pushMessage` (`typeof route !== 'string'`, callback in the options slot) is not modelled. There is one explicit signature.
- The store's own behaviour and its callbacks are not modelled. Store writes are returned as a list of operations. A failed member-set load during restore is left out: the source would then read `items.length` of `undefined` and throw.
- Restore timing is not modelled. Restore's member loads complete at unknown times after `start`'s callback, and the model gives the registry once every load has been applied. It does not model an operation that runs between the callback and the loads.
- Restore.RestoreAsWritten: it applies the member-set loads in list order. In the source they complete in any order, which can change the order of user ids within the last channel's lists. The bag of entries is the same either way. The records are not: a user id that appears in two loads keeps the record of whichever load completes last (Restore.RecordFollowsLastEntry shows both outcomes), and the model fixes the list-order one.
- Restore.Start: it inherits the list-order schedule of Restore.RestoreAsWritten. Its ensures fix the last channel's list order and the record of a user id found in several loads to the loads completing in list order, which is only one of the orders the source allows.
- Restore.RestoreReplaysAdds: it feeds restore every written entry in write order, duplicates included, as a list store would. The store at lines 516 and 537 is a member set, which keeps each entry once and hands entries back in any order. For that store, Restore.RestoreFromSetStore proves that the same user ids are listed under the same server ids. It does not promise the order within a list, repeated entries, or which record a user id listed under several server ids ends up with.
- The model assumes the channel-set load returns an array. The `Array.isArray` test at line 480 is not modelled separately.
- Ids are `undefined`, `null`, safe integers (magnitude at most 2^53 - 1) or strings. Larger integers, which JavaScript prints in exponent form from 10^21 on, are not modelled. Booleans, non-integer numbers, objects and prototype-inherited keys (such as looking up a channel named `constructor`) are not modelled either.
- Channels are values, not shared objects. In the source a caller of `add` or `leave` changes the same `Channel` object that the registry holds. In the model, the caller of Channels.Add or Channels.Leave has to store the returned channel back into the service's map itself.
- Channel names are strings. A falsy channel name is not special-cased. `genKey` of the empty name gives the channel-set key, as in the source.
- `getMembers` order: for-in key order is a parameter. The model proves only what holds for every order, so it does not fix JavaScript's integer-keys-first ordering.
- Channels.UserAmount: `getUserAmount` is a plain read of the counter. Its behaviour is stated by Channels.UserAmountAtMostMembers, Channels.AddThenLeave and Channels.LeaveClampsAtZero.
- Channels.GetMember: `getMember` is a plain lookup of the record. Its behaviour is stated by Channels.GetMemberIsListed and Channels.AddThenLeave.

Behaviour of the source worth knowing, all of it modelled as written:
- **`add` store write.** `add` writes the member entry to the store even when a falsy server id makes the add fail (line 243). For an `undefined`, `null` or `0` server id, the entry reads back at restore with the server id `"undefined"`, `"null"` or `"0"`. That string is truthy, so after a restart the rejected user is listed under a server of that name (Restore.RejectedAddIsRestored).
- **`pushMessage` on a destroyed channel.** The source passes the error where the callback belongs (line 331), so the callback is never invoked.
- **Latch count.** The latch counts every key of the grouped map (line 407), and an empty list's slot is released on the next tick (line 464) through the success path, so an empty list counts as a success.
- **Restored counter.** A restored channel's counter stays 0 while its lists are refilled (lines 493-496 never touch `userAmount`). For adds that succeeded with string ids, restore rebuilds members and records but not the counter. It also lists users whose add was rejected for an `undefined`, `null` or `0` server id (see the `add` store write above).

## Findings

| source | as written | input that shows it | evidently intended | confidence | as-written member | corrected member |
|---|---|---|---|---|---|---|
| lib/common/service/channelService.js:491 | the load callback reads `self.channels[name]`, where `name` is the function-scoped `var` of the loop at line 503. The callbacks run after the loop, so every channel's members are inserted into the channel of the last listed entry. | a channel set listing channels `a` and `b`, where `a`'s member set holds `"s1:u1"` and `b`'s is empty: `a` is restored empty and `b` gets `u1` | each channel's member set is loaded into that channel | not executed | Restore.Start, Restore.RestoreAsWritten, Restore.HoistedNameMisroutesMembers | Restore.StartCorrected, Restore.RestoreChannels, Restore.RestoreChannelsRestoresEach, Restore.CorrectedRestoreKeepsMembersApart |

`Restore.Start` models `start` as written; `Restore.StartCorrected` is the same entry point with the corrected restore.

=== FILE: channels.dfy ===
/** A channel: the members of one named group, partitioned by the server
    each member is connected to, with its two-state lifecycle
    INITED -> DESTROYED. Operations return the new channel, the boolean
    result, and the store writes they issue. */
module Channels {
  import opened JsValues
  import opened StoreKeys
  import opened Groups
  import opened Dispatch

  datatype State = Inited | Destroyed

  /** `groups`: server key -> user ids; `records`: user key -> `{sid, uid}`;
      `userAmount`: successful adds minus successful leaves, clamped at 0. */
  datatype Channel = Channel(name: string, groups: GroupMap, records: map<string, Member>,
                             userAmount: nat, state: State)

  function NewChannel(name: string): Channel {
    Channel(name, map[], map[], 0, Inited)
  }

  datatype Step = Step(channel: Channel, ok: bool, ops: seq<StoreOp>)

  /** `Channel.add(uid, sid)`. A destroyed channel rejects everything and
      writes nothing. An INITED channel always writes the member entry to the
      store, even when the falsy server id makes the add itself fail; the
      user id is never checked. */
  function Add(cfg: Config, ch: Channel, uid: JsValue, sid: JsValue): (r: Step)
    ensures ch.state == Destroyed ==> r == Step(ch, false, [])
    ensures ch.state == Inited ==> (r.ok <==> !Falsy(sid))
    ensures ch.state == Inited ==> r.ops == Emit(cfg, StoreOp.Add(GenKey(cfg, ch.name), GenValue(sid, uid)))
    ensures !r.ok ==> r.channel == ch
    ensures r.ok ==>
              && r.channel.name == ch.name && r.channel.state == ch.state
              && r.channel.groups.Keys == ch.groups.Keys + {ToJsString(sid)}
              && r.channel.groups[ToJsString(sid)] == GroupOf(ch.groups, ToJsString(sid)) + [uid]
              && (forall k :: k in ch.groups && k != ToJsString(sid) ==> r.channel.groups[k] == ch.groups[k])
              && r.channel.records == ch.records[ToJsString(uid) := Member(sid, uid)]
              && r.channel.userAmount == ch.userAmount + 1
  {
    if ch.state == Destroyed then Step(ch, false, [])
    else
      var a := AddToGroup(uid, sid, ch.groups);
      var ch' := if a.ok
                 then ch.(groups := a.groups,
                          records := ch.records[ToJsString(uid) := Member(sid, uid)],
                          userAmount := ch.userAmount + 1)
                 else ch;
      Step(ch', a.ok, Emit(cfg, StoreOp.Add(GenKey(cfg, ch.name), GenValue(sid, uid))))
  }

  /** Whether `Leave` removes an entry: both ids truthy and the user id
      present (by `===`) in the list of that server. */
  predicate Matches(ch: Channel, uid: JsValue, sid: JsValue) {
    !Falsy(uid) && !Falsy(sid) && uid in GroupOf(ch.groups, ToJsString(sid))
  }

  /** `Channel.leave(uid, sid)`. With a falsy id nothing happens at all.
      Otherwise the first entry `===` uid is removed from that server's list;
      only then is the record deleted and the counter decremented (never
      below 0). The store removal is issued whether or not anything matched,
      and a list left empty is dropped. The state is not checked. */
  function Leave(cfg: Config, ch: Channel, uid: JsValue, sid: JsValue): (r: Step)
    ensures Falsy(uid) || Falsy(sid) ==> r == Step(ch, false, [])
    ensures !Falsy(uid) && !Falsy(sid) ==> r.ops == Emit(cfg, Remove(GenKey(cfg, ch.name), GenValue(sid, uid)))
    ensures r.ok <==> Matches(ch, uid, sid)
    ensures r.channel.name == ch.name && r.channel.state == ch.state
    ensures r.ok ==> r.channel.records == ch.records - {ToJsString(uid)}
    ensures r.ok ==> r.channel.userAmount == if ch.userAmount == 0 then 0 else ch.userAmount - 1
    ensures !r.ok ==> r.channel.records == ch.records && r.channel.userAmount == ch.userAmount
    ensures r.channel.groups.Keys <= ch.groups.Keys
    ensures forall k :: k in ch.groups && k != ToJsString(sid) ==> k in r.channel.groups && r.channel.groups[k] == ch.groups[k]
    ensures r.ok ==>
              var s := ch.groups[ToJsString(sid)];
              && GroupOf(r.channel.groups, ToJsString(sid)) == RemoveAt(s, IndexOf(s, uid))
              && (ToJsString(sid) in r.channel.groups <==> |s| > 1)
    ensures !r.ok && (ToJsString(sid) !in ch.groups || ch.groups[ToJsString(sid)] != []) ==> r.channel == ch
    ensures !Falsy(uid) && !Falsy(sid) && !r.ok && ToJsString(sid) in ch.groups && ch.groups[ToJsString(sid)] == [] ==>
              r.channel == ch.(groups := ch.groups - {ToJsString(sid)})
  {
    if Falsy(uid) || Falsy(sid) then Step(ch, false, [])
    else
      var key := ToJsString(sid);
      var d := DeleteFrom(uid, sid, Lookup(ch.groups, key));
      var groups := if d.found then ch.groups[key := d.group.value] else ch.groups;
      var records := if d.found then ch.records - {ToJsString(uid)} else ch.records;
      var amount := if d.found && ch.userAmount > 0 then ch.userAmount - 1 else ch.userAmount;
      var pruned := if key in groups && groups[key] == [] then groups - {key} else groups;
      Step(ch.(groups := pruned, records := records, userAmount := amount), d.found,
           Emit(cfg, Remove(GenKey(cfg, ch.name), GenValue(sid, uid))))
  }

  /** `getUserAmount()`. */
  function UserAmount(ch: Channel): nat {
    ch.userAmount
  }

  /** `getMember(uid)`: the record under the user id's key. */
  function GetMember(ch: Channel, uid: JsValue): Option<Member> {
    if ToJsString(uid) in ch.records then Some(ch.records[ToJsString(uid)]) else None
  }

  /** `getMembers()`: the lists of all servers, concatenated in the order
      the `for ... in` loop visits the keys (`order`). Whatever that order,
      the result holds every entry of every list exactly once. */
  function GetMembers(ch: Channel, order: seq<string>): (r: seq<JsValue>)
    requires IsEnumeration(order, ch.groups.Keys)
    ensures multiset(r) == MemberBag(ch.groups)
    ensures |r| == |MemberBag(ch.groups)|
  {
    FlattenIsBag(ch.groups, order);
    Flatten(ch.groups, order)
  }

  /** `pushMessage`: a channel that is not INITED dispatches nothing and,
      since the error is passed where the callback belongs, never calls the
      callback. An INITED channel sends its groups through the group
      dispatch: every member is carried by exactly one call, and a
      well-formed channel has no empty group to skip. */
  function PushMessage(ch: Channel, order: seq<string>, localId: string,
                       answers: seq<Answer>, arrivals: seq<Answer>): (r: Outcome)
    requires ch.state == Inited ==> Collected(ch.groups, order, localId, answers, arrivals)
    ensures ch.state == Destroyed ==> r == Outcome([], NotInvoked)
    ensures ch.state == Inited ==> r == SendByGroup(ch.groups, order, localId, answers, arrivals)
    ensures ch.state == Inited ==> multiset(PlannedUids(r.branches)) == MemberBag(ch.groups)
    ensures ch.state == Inited && (forall k :: k in ch.groups ==> ch.groups[k] != []) ==>
              forall i :: 0 <= i < |r.branches| ==> r.branches[i].Invoke?
  {
    if ch.state != Inited then Outcome([], NotInvoked)
    else
      PlanCoversGroups(ch.groups, order, localId);
      SendByGroup(ch.groups, order, localId, answers, arrivals)
  }

  // ------------------------------------------------------------- invariants

  /** The invariants `add` and `leave` keep: no empty list is kept; every
      record sits under its own user's key and names a server whose list
      holds that user; the counter never exceeds the number of entries. */
  ghost predicate Wf(ch: Channel) {
    && NoEmptyGroups(ch.groups)
    && RecordsBacked(ch)
    && ch.userAmount <= |MemberBag(ch.groups)|
  }

  predicate NoEmptyGroups(groups: GroupMap) {
    forall k :: k in groups ==> groups[k] != []
  }

  predicate RecordsBacked(ch: Channel) {
    forall k :: k in ch.records ==>
      && ToJsString(ch.records[k].uid) == k
      && ch.records[k].uid in GroupOf(ch.groups, ToJsString(ch.records[k].sid))
  }

  lemma NewChannelWf(name: string)
    ensures Wf(NewChannel(name))
    ensures MemberBag(NewChannel(name).groups) == multiset{}
  {
  }

  /** `add` grows the bag of entries by the added user exactly when it
      succeeds. */
  lemma AddBag(cfg: Config, ch: Channel, uid: JsValue, sid: JsValue)
    ensures MemberBag(Add(cfg, ch, uid, sid).channel.groups)
            == MemberBag(ch.groups) + (if Add(cfg, ch, uid, sid).ok then multiset{uid} else multiset{})
  {
    var r := Add(cfg, ch, uid, sid);
    if r.ok {
      var key := ToJsString(sid);
      assert r.channel.groups == ch.groups[key := GroupOf(ch.groups, key) + [uid]];
      BagAppend(ch.groups, key, uid);
    }
  }

  lemma AddKeepsRecordsBacked(cfg: Config, ch: Channel, uid: JsValue, sid: JsValue)
    requires RecordsBacked(ch)
    ensures RecordsBacked(Add(cfg, ch, uid, sid).channel)
  {
    var r := Add(cfg, ch, uid, sid);
    if r.ok {
      var c := r.channel;
      forall k | k in c.records
        ensures c.records[k].uid in GroupOf(c.groups, ToJsString(c.records[k].sid))
      {
        if k != ToJsString(uid) {
          var m := ch.records[k];
          assert m.uid in GroupOf(ch.groups, ToJsString(m.sid));
          assert GroupOf(ch.groups, ToJsString(m.sid)) <= GroupOf(c.groups, ToJsString(m.sid));
        }
      }
    }
  }

  /** `add` keeps the invariants. */
  lemma AddKeepsWf(cfg: Config, ch: Channel, uid: JsValue, sid: JsValue)
    requires Wf(ch)
    ensures Wf(Add(cfg, ch, uid, sid).channel)
  {
    AddBag(cfg, ch, uid, sid);
    AddKeepsRecordsBacked(cfg, ch, uid, sid);
  }

  /** `leave` shrinks the bag of entries by the user exactly when it
      succeeds. */
  lemma LeaveBag(cfg: Config, ch: Channel, uid: JsValue, sid: JsValue)
    ensures MemberBag(Leave(cfg, ch, uid, sid).channel.groups)
            == MemberBag(ch.groups) - (if Leave(cfg, ch, uid, sid).ok then multiset{uid} else multiset{})
    ensures Leave(cfg, ch, uid, sid).ok ==> uid in MemberBag(ch.groups)
  {
    var r := Leave(cfg, ch, uid, sid);
    if !Falsy(uid) && !Falsy(sid) {
      var key := ToJsString(sid);
      if r.ok {
        var s := ch.groups[key];
        var i := IndexOf(s, uid);
        var mid := ch.groups[key := RemoveAt(s, i)];
        BagRemoveAt(ch.groups, key, i);
        if RemoveAt(s, i) == [] {
          BagDropEmpty(mid, key);
          assert r.channel.groups == mid - {key};
        } else {
          assert r.channel.groups == mid;
        }
      } else if key in ch.groups && ch.groups[key] == [] {
        BagDropEmpty(ch.groups, key);
        assert r.channel.groups == ch.groups - {key};
      }
    }
  }

  lemma LeaveKeepsRecordsBacked(cfg: Config, ch: Channel, uid: JsValue, sid: JsValue)
    requires RecordsBacked(ch)
    ensures RecordsBacked(Leave(cfg, ch, uid, sid).channel)
  {
    var r := Leave(cfg, ch, uid, sid);
    if r.ok {
      var key := ToJsString(sid);
      var s := ch.groups[key];
      var c := r.channel;
      forall k | k in c.records
        ensures c.records[k].uid in GroupOf(c.groups, ToJsString(c.records[k].sid))
      {
        var m := ch.records[k];
        assert m.uid != uid;
        if ToJsString(m.sid) == key {
          RemoveAtKeepsOthers(s, IndexOf(s, uid), m.uid);
        }
      }
    }
  }

  /** `leave` keeps the invariants. */
  lemma LeaveKeepsWf(cfg: Config, ch: Channel, uid: JsValue, sid: JsValue)
    requires Wf(ch)
    ensures Wf(Leave(cfg, ch, uid, sid).channel)
  {
    LeaveKeepsRecordsBacked(cfg, ch, uid, sid);
    LeaveKeepsNoEmptyGroups(cfg, ch, uid, sid);
    LeaveKeepsCount(cfg, ch, uid, sid);
  }

  /** `leave` lowers the counter only when it removes an entry. */
  lemma LeaveKeepsCount(cfg: Config, ch: Channel, uid: JsValue, sid: JsValue)
    requires ch.userAmount <= |MemberBag(ch.groups)|
    ensures Leave(cfg, ch, uid, sid).channel.userAmount <= |MemberBag(Leave(cfg, ch, uid, sid).channel.groups)|
  {
    var r := Leave(cfg, ch, uid, sid);
    LeaveBag(cfg, ch, uid, sid);
    if r.ok {
      var bag := MemberBag(ch.groups);
      assert bag == (bag - multiset{uid}) + multiset{uid};
      assert |MemberBag(r.channel.groups)| == |bag| - 1;
    }
  }

  /** A list `leave` empties is dropped. */
  lemma LeaveKeepsNoEmptyGroups(cfg: Config, ch: Channel, uid: JsValue, sid: JsValue)
    requires NoEmptyGroups(ch.groups)
    ensures NoEmptyGroups(Leave(cfg, ch, uid, sid).channel.groups)
  {
  }

  /** On a well-formed channel `getMember` only reports a user that is
      still listed under the server its record names. */
  lemma GetMemberIsListed(ch: Channel, uid: JsValue)
    requires Wf(ch)
    ensures GetMember(ch, uid).Some? ==>
              var m := GetMember(ch, uid).value;
              && ToJsString(m.uid) == ToJsString(uid)
              && m.uid in GroupOf(ch.groups, ToJsString(m.sid))
              && m.uid in MemberBag(ch.groups)
  {
    if GetMember(ch, uid).Some? {
      var m := GetMember(ch, uid).value;
      BagHas(ch.groups, ToJsString(m.sid), m.uid);
    }
  }

  /** On a well-formed channel `getUserAmount` never exceeds the number of
      entries `getMembers` returns. */
  lemma UserAmountAtMostMembers(ch: Channel, order: seq<string>)
    requires Wf(ch) && IsEnumeration(order, ch.groups.Keys)
    ensures UserAmount(ch) <= |GetMembers(ch, order)|
  {
  }

  // ---------------------------------------------------------------- traces

  datatype Command = AddCmd(uid: JsValue, sid: JsValue) | LeaveCmd(uid: JsValue, sid: JsValue) | DestroyCmd

  /** One command applied to the channel alone; `DestroyCmd` is the state
      change `Channel.destroy` makes (its registry effect is in Registry). */
  function Apply(cfg: Config, ch: Channel, c: Command): Channel {
    match c
    case AddCmd(uid, sid) => Add(cfg, ch, uid, sid).channel
    case LeaveCmd(uid, sid) => Leave(cfg, ch, uid, sid).channel
    case DestroyCmd => ch.(state := Destroyed)
  }

  function Run(cfg: Config, ch: Channel, cmds: seq<Command>): Channel
    decreases |cmds|
  {
    if cmds == [] then ch else Run(cfg, Apply(cfg, ch, cmds[0]), cmds[1..])
  }

  /** Any sequence of adds, leaves and destroys keeps the invariants. */
  lemma {:induction false} RunKeepsWf(cfg: Config, ch: Channel, cmds: seq<Command>)
    requires Wf(ch)
    ensures Wf(Run(cfg, ch, cmds))
    decreases |cmds|
  {
    if cmds != [] {
      match cmds[0] {
        case AddCmd(uid, sid) => AddKeepsWf(cfg, ch, uid, sid);
        case LeaveCmd(uid, sid) => LeaveKeepsWf(cfg, ch, uid, sid);
        case DestroyCmd =>
      }
      RunKeepsWf(cfg, Apply(cfg, ch, cmds[0]), cmds[1..]);
    }
  }

  /** DESTROYED is final: no sequence of operations leaves it, and every
      later add is rejected. */
  lemma {:induction false} DestroyedIsFinal(cfg: Config, ch: Channel, cmds: seq<Command>)
    requires ch.state == Destroyed
    ensures Run(cfg, ch, cmds).state == Destroyed
    ensures forall uid, sid :: !Add(cfg, Run(cfg, ch, cmds), uid, sid).ok
    decreases |cmds|
  {
    if cmds != [] {
      DestroyedIsFinal(cfg, Apply(cfg, ch, cmds[0]), cmds[1..]);
    }
  }

  // -------------------------------------------------------------- scenarios

  /** After a successful add the member is recorded under the user and the
      counter has grown by one; leaving with the same pair then succeeds,
      drops the record, restores the counter and the bag of entries. */
  lemma AddThenLeave(cfg: Config, ch: Channel, uid: JsValue, sid: JsValue)
    requires ch.state == Inited && !Falsy(sid) && !Falsy(uid)
    ensures GetMember(Add(cfg, ch, uid, sid).channel, uid) == Some(Member(sid, uid))
    ensures UserAmount(Add(cfg, ch, uid, sid).channel) == UserAmount(ch) + 1
    ensures var c := Leave(cfg, Add(cfg, ch, uid, sid).channel, uid, sid);
            && c.ok
            && GetMember(c.channel, uid) == None
            && UserAmount(c.channel) == UserAmount(ch)
            && MemberBag(c.channel.groups) == MemberBag(ch.groups)
  {
    var a := Add(cfg, ch, uid, sid);
    AddIsListed(cfg, ch, uid, sid);
    AddBag(cfg, ch, uid, sid);
    LeaveUnlists(cfg, a.channel, uid, sid);
    LeaveBag(cfg, a.channel, uid, sid);
  }

  /** An add with truthy ids on an INITED channel succeeds, lists the user
      under its server, records it, and raises the count by one. */
  lemma AddIsListed(cfg: Config, ch: Channel, uid: JsValue, sid: JsValue)
    requires ch.state == Inited && !Falsy(sid) && !Falsy(uid)
    ensures var a := Add(cfg, ch, uid, sid);
            && a.ok && Matches(a.channel, uid, sid)
            && GetMember(a.channel, uid) == Some(Member(sid, uid))
            && UserAmount(a.channel) == UserAmount(ch) + 1
  {
    var a := Add(cfg, ch, uid, sid);
    assert a.channel.groups[ToJsString(sid)] == GroupOf(ch.groups, ToJsString(sid)) + [uid];
  }

  /** A leave that matches succeeds, drops the record, and lowers the count
      by one unless it is already 0. */
  lemma LeaveUnlists(cfg: Config, ch: Channel, uid: JsValue, sid: JsValue)
    requires Matches(ch, uid, sid)
    ensures var l := Leave(cfg, ch, uid, sid);
            && l.ok && GetMember(l.channel, uid) == None
            && UserAmount(l.channel) == if ch.userAmount == 0 then 0 else ch.userAmount - 1
  {
  }

  /** The user id 0 is falsy: `add` accepts it (only the server id is
      checked) but `leave` refuses it, so that member can never leave. */
  lemma ZeroUidCannotLeave(cfg: Config, ch: Channel, sid: JsValue)
    requires ch.state == Inited && !Falsy(sid)
    ensures Add(cfg, ch, Num(0), sid).ok
    ensures Num(0) in Add(cfg, ch, Num(0), sid).channel.groups[ToJsString(sid)]
    ensures !Leave(cfg, Add(cfg, ch, Num(0), sid).channel, Num(0), sid).ok
    ensures Leave(cfg, Add(cfg, ch, Num(0), sid).channel, Num(0), sid).channel == Add(cfg, ch, Num(0), sid).channel
  {
  }

  /** A leave that matches on a channel whose counter is already 0 (as after
      restore) keeps the counter at 0 instead of going negative. */
  lemma LeaveClampsAtZero(cfg: Config, ch: Channel, uid: JsValue, sid: JsValue)
    requires ch.userAmount == 0 && Matches(ch, uid, sid)
    ensures Leave(cfg, ch, uid, sid).ok
    ensures UserAmount(Leave(cfg, ch, uid, sid).channel) == 0
  {
  }
}

=== FILE: dispatch.dfy ===
/** Cluster-wide dispatch: turning a `groups` map (push) or a server list
    (broadcast) into one call per target server, and folding the branch
    outcomes, collected by the count-down latch in completion order, into the
    one reply the caller's callback receives.

    The latch is abstracted as "all N outcomes collected": `arrivals` is the
    sequence of branch outcomes in the order they completed, required to be a
    rearrangement of the per-branch outcomes. The environment's answer for
    each branch is the parameter `answers`, indexed like the plan. */
module Dispatch {
  import opened JsValues
  import opened Groups

  /** A call to the local server goes straight to the local handler; any
      other goes through `rpcInvoke` to `sys.channelRemote`. */
  datatype Via = Direct | Rpc

  /** The `type` tag (with its `isPush` / `isBroadcast` twin) of the options
      object handed to the handler, which is also the handler method called. */
  datatype Kind = Push | Broadcast

  /** One handler invocation: how, on which server, which method, and the
      user ids it carries (none for a broadcast). */
  datatype Call = Call(via: Via, server: string, kind: Kind, uids: seq<JsValue>)

  /** A planned branch: a real invocation, or an empty group whose latch slot
      is released on the next tick without any call. */
  datatype Branch = Invoke(call: Call) | Skip(server: string)

  /** What one branch reports: an error, or success with the user ids its
      server could not deliver to. */
  datatype Answer = Failed | Succeeded(fails: seq<JsValue>)

  /** How the caller's callback is invoked: not at all, with no arguments,
      with an error, or with a null error and possibly a failed-id list. */
  datatype Reply = NotInvoked | NoArgs | Error(message: string) | Done(failIds: Option<seq<JsValue>>)

  /** The branches issued and the reply delivered. */
  datatype Outcome = Outcome(branches: seq<Branch>, reply: Reply)

  function ServerOf(b: Branch): string {
    match b
    case Invoke(c) => c.server
    case Skip(s) => s
  }

  function ViaFor(server: string, localId: string): Via {
    if server == localId then Direct else Rpc
  }

  // ---------------------------------------------------------------- planning

  /** The loop over `groups` in `sendMessageByGroup`: one branch per key, in
      the order the keys are visited. */
  function PlanGroups(groups: GroupMap, order: seq<string>, localId: string): (plan: seq<Branch>)
    requires forall i :: 0 <= i < |order| ==> order[i] in groups
    ensures |plan| == |order|
    ensures forall i :: 0 <= i < |plan| ==> ServerOf(plan[i]) == order[i]
    ensures forall i :: 0 <= i < |plan| ==> (plan[i].Skip? <==> groups[order[i]] == [])
    ensures forall i :: 0 <= i < |plan| && plan[i].Invoke? ==>
              && plan[i].call.uids == groups[order[i]]
              && plan[i].call.kind == Push
              && (plan[i].call.via == Direct <==> order[i] == localId)
  {
    if order == [] then []
    else
      var sid := order[0];
      var b := if groups[sid] != [] then Invoke(Call(ViaFor(sid, localId), sid, Push, groups[sid])) else Skip(sid);
      [b] + PlanGroups(groups, order[1..], localId)
  }

  /** All user ids carried by the invocations of a plan, in plan order. */
  function PlannedUids(plan: seq<Branch>): seq<JsValue> {
    if plan == [] then []
    else (if plan[0].Invoke? then plan[0].call.uids else []) + PlannedUids(plan[1..])
  }

  /** Every member of every group is sent exactly once, and every key of the
      map gets exactly one branch. */
  lemma {:induction false} PlanCoversGroups(groups: GroupMap, order: seq<string>, localId: string)
    requires IsEnumeration(order, groups.Keys)
    ensures multiset(PlannedUids(PlanGroups(groups, order, localId))) == MemberBag(groups)
    ensures forall k :: k in groups <==> exists i :: 0 <= i < |order| && ServerOf(PlanGroups(groups, order, localId)[i]) == k
    ensures forall i, j :: 0 <= i < j < |order| ==>
              ServerOf(PlanGroups(groups, order, localId)[i]) != ServerOf(PlanGroups(groups, order, localId)[j])
  {
    PlannedUidsAreFlatten(groups, order, localId);
    FlattenIsBag(groups, order);
    var plan := PlanGroups(groups, order, localId);
    forall k | k in groups ensures exists i :: 0 <= i < |order| && ServerOf(plan[i]) == k {
      var i :| 0 <= i < |order| && order[i] == k;
      assert ServerOf(plan[i]) == k;
    }
  }

  lemma {:induction false} PlannedUidsAreFlatten(groups: GroupMap, order: seq<string>, localId: string)
    requires forall i :: 0 <= i < |order| ==> order[i] in groups
    ensures PlannedUids(PlanGroups(groups, order, localId)) == Flatten(groups, order)
  {
    if order != [] {
      var plan := PlanGroups(groups, order, localId);
      assert plan[1..] == PlanGroups(groups, order[1..], localId);
      PlannedUidsAreFlatten(groups, order[1..], localId);
    }
  }

  /** The broadcast loop: one invocation per listed server, duplicates
      included, in list order. */
  function PlanBroadcast(servers: seq<string>, localId: string): (plan: seq<Branch>)
    ensures |plan| == |servers|
    ensures forall i :: 0 <= i < |plan| ==>
              && plan[i].Invoke?
              && plan[i].call.server == servers[i]
              && plan[i].call.kind == Broadcast
              && plan[i].call.uids == []
              && (plan[i].call.via == Direct <==> servers[i] == localId)
  {
    if servers == [] then []
    else [Invoke(Call(ViaFor(servers[0], localId), servers[0], Broadcast, []))] + PlanBroadcast(servers[1..], localId)
  }

  // ------------------------------------------------------------- aggregation

  /** What each planned branch reports: a skipped (empty) group reports
      success with no failures; an invocation reports the environment's
      answer. */
  function Effective(plan: seq<Branch>, answers: seq<Answer>): (r: seq<Answer>)
    requires |answers| == |plan|
    ensures |r| == |plan|
    ensures forall i :: 0 <= i < |r| ==> r[i] == (if plan[i].Skip? then Succeeded([]) else answers[i])
  {
    if plan == [] then []
    else [if plan[0].Skip? then Succeeded([]) else answers[0]] + Effective(plan[1..], answers[1..])
  }

  function FailsOf(a: Answer): seq<JsValue> {
    if a.Succeeded? then a.fails else []
  }

  /** The failure lists of the successful outcomes, concatenated in order. */
  function ConcatFails(outs: seq<Answer>): seq<JsValue> {
    if outs == [] then [] else FailsOf(outs[0]) + ConcatFails(outs[1..])
  }

  predicate AnySuccess(outs: seq<Answer>) {
    exists i :: 0 <= i < |outs| && outs[i].Succeeded?
  }

  lemma {:induction false} ConcatFailsAppend(a: seq<Answer>, b: seq<Answer>)
    ensures ConcatFails(a + b) == ConcatFails(a) + ConcatFails(b)
  {
    if a != [] {
      assert (a + b)[0] == a[0];
      assert (a + b)[1..] == a[1..] + b;
      ConcatFailsAppend(a[1..], b);
    } else {
      assert a + b == b;
    }
  }

  datatype Tally = Tally(success: bool, failIds: seq<JsValue>)

  /** The state the per-branch callbacks build up as outcomes arrive: the
      success flag is raised by any successful branch, and each successful
      branch's failure list is appended to `failIds`. */
  function Collect(arrivals: seq<Answer>): (t: Tally)
    ensures t.success <==> AnySuccess(arrivals)
    ensures t.failIds == ConcatFails(arrivals)
    decreases |arrivals|
  {
    if arrivals == [] then Tally(false, [])
    else
      var n := |arrivals| - 1;
      var before := Collect(arrivals[..n]);
      assert arrivals == arrivals[..n] + [arrivals[n]];
      ConcatFailsAppend(arrivals[..n], [arrivals[n]]);
      match arrivals[n]
      case Failed => before
      case Succeeded(fails) => Tally(true, before.failIds + fails)
  }

  /** Whether some outcome succeeded does not depend on the arrival order. */
  lemma AnySuccessOfRearrangement(a: seq<Answer>, b: seq<Answer>)
    requires multiset(a) == multiset(b)
    ensures AnySuccess(a) <==> AnySuccess(b)
  {
    if AnySuccess(a) {
      var i :| 0 <= i < |a| && a[i].Succeeded?;
      assert a[i] in multiset(b);
    }
    if AnySuccess(b) {
      var j :| 0 <= j < |b| && b[j].Succeeded?;
      assert b[j] in multiset(a);
    }
  }

  lemma {:induction false} MultisetWithout(b: seq<Answer>, j: nat)
    requires j < |b|
    ensures multiset(b[..j] + b[j + 1..]) == multiset(b) - multiset{b[j]}
  {
    assert b == b[..j] + [b[j]] + b[j + 1..];
  }

  lemma {:induction false} ConcatFailsAround(b: seq<Answer>, j: nat)
    requires j < |b|
    ensures ConcatFails(b) == ConcatFails(b[..j]) + FailsOf(b[j]) + ConcatFails(b[j + 1..])
    ensures ConcatFails(b[..j] + b[j + 1..]) == ConcatFails(b[..j]) + ConcatFails(b[j + 1..])
  {
    assert b == b[..j] + ([b[j]] + b[j + 1..]);
    ConcatFailsAppend(b[..j], [b[j]] + b[j + 1..]);
    ConcatFailsAppend([b[j]], b[j + 1..]);
    assert ConcatFails([b[j]]) == FailsOf(b[j]);
    ConcatFailsAppend(b[..j], b[j + 1..]);
  }

  /** Taking the first outcome of `a` out of `b` at a position holding it
      leaves two rearrangements of each other. */
  lemma {:induction false} RemoveMatching(a: seq<Answer>, b: seq<Answer>, j: nat)
    requires multiset(a) == multiset(b) && a != [] && j < |b| && b[j] == a[0]
    ensures multiset(a[1..]) == multiset(b[..j] + b[j + 1..])
  {
    MultisetWithout(b, j);
    assert a == [a[0]] + a[1..];
    assert multiset(a) == multiset{a[0]} + multiset(a[1..]);
  }

  /** The failed ids reported do not depend on the arrival order, up to their
      order. */
  lemma {:induction false} FailBagOfRearrangement(a: seq<Answer>, b: seq<Answer>)
    requires multiset(a) == multiset(b)
    ensures multiset(ConcatFails(a)) == multiset(ConcatFails(b))
    decreases |a|
  {
    if a == [] {
      assert |b| == |multiset(b)|;
    } else {
      var x := a[0];
      assert x in multiset(b);
      var j :| 0 <= j < |b| && b[j] == x;
      var rest := b[..j] + b[j + 1..];
      RemoveMatching(a, b, j);
      FailBagOfRearrangement(a[1..], rest);
      ConcatFailsAround(b, j);
      var left, right := ConcatFails(b[..j]), ConcatFails(b[j + 1..]);
      assert ConcatFails(a) == FailsOf(x) + ConcatFails(a[1..]);
      calc {
        multiset(ConcatFails(a));
        multiset(FailsOf(x)) + multiset(ConcatFails(a[1..]));
        multiset(FailsOf(x)) + multiset(left + right);
        multiset(left + FailsOf(x) + right);
        multiset(ConcatFails(b));
      }
    }
  }

  lemma NoSuccessMeansAllFailed(outs: seq<Answer>)
    ensures !AnySuccess(outs) <==> forall i :: 0 <= i < |outs| ==> outs[i].Failed?
  {
  }

  // ---------------------------------------------------------- push by group

  /** The latch has collected one outcome per planned branch, in some order. */
  predicate Collected(groups: GroupMap, order: seq<string>, localId: string,
                      answers: seq<Answer>, arrivals: seq<Answer>)
  {
    && IsEnumeration(order, groups.Keys)
    && |answers| == |order|
    && multiset(arrivals) == multiset(Effective(PlanGroups(groups, order, localId), answers))
  }

  /** `sendMessageByGroup`: nothing to do for an empty map (the callback is
      invoked with no arguments); otherwise one branch per key, and once all
      outcomes are in, an error if none succeeded, else success with the
      concatenated failure lists. */
  function SendByGroup(groups: GroupMap, order: seq<string>, localId: string,
                       answers: seq<Answer>, arrivals: seq<Answer>): (r: Outcome)
    requires Collected(groups, order, localId, answers, arrivals)
    ensures r.branches == PlanGroups(groups, order, localId)
    ensures groups == map[] <==> r.branches == []
    ensures groups == map[] ==> r.reply == NoArgs
    ensures groups != map[] ==>
              (r.reply.Error? <==> forall i :: 0 <= i < |order| ==> groups[order[i]] != [] && answers[i].Failed?)
    ensures r.reply.Error? ==> r.reply.message == "all uids push message fail"
    ensures groups != map[] && !r.reply.Error? ==>
              && r.reply.Done? && r.reply.failIds.Some?
              && r.reply.failIds.value == ConcatFails(arrivals)
              && multiset(r.reply.failIds.value)
                 == multiset(ConcatFails(Effective(PlanGroups(groups, order, localId), answers)))
  {
    var plan := PlanGroups(groups, order, localId);
    if groups == map[] then
      Outcome(plan, NoArgs)
    else
      assert order != [] by {
        var k :| k in groups;
        assert k in order;
      }
      var eff := Effective(plan, answers);
      AnySuccessOfRearrangement(arrivals, eff);
      NoSuccessMeansAllFailed(eff);
      FailBagOfRearrangement(arrivals, eff);
      var t := Collect(arrivals);
      if !t.success then Outcome(plan, Error("all uids push message fail"))
      else Outcome(plan, Done(Some(t.failIds)))
  }

  // -------------------------------------------------------------- broadcast

  /** `broadcast`: no servers of the type (or no list) means success with no
      calls; otherwise one call per server, and an error iff every call
      failed. Failure lists are ignored. */
  function BroadcastTo(servers: Option<seq<string>>, localId: string,
                       answers: seq<Answer>, arrivals: seq<Answer>): (r: Outcome)
    requires servers.Some? ==> |answers| == |servers.value| && multiset(arrivals) == multiset(answers)
    ensures servers.None? || servers.value == [] ==> r == Outcome([], NoArgs)
    ensures servers.Some? && servers.value != [] ==>
              && r.branches == PlanBroadcast(servers.value, localId)
              && (r.reply == Error("broadcast fails") || r.reply == Done(None))
              && (r.reply.Error? <==> forall i :: 0 <= i < |answers| ==> answers[i].Failed?)
  {
    if servers.None? || servers.value == [] then Outcome([], NoArgs)
    else
      AnySuccessOfRearrangement(arrivals, answers);
      NoSuccessMeansAllFailed(answers);
      var plan := PlanBroadcast(servers.value, localId);
      if !Collect(arrivals).success then Outcome(plan, Error("broadcast fails"))
      else Outcome(plan, Done(None))
  }

  // ----------------------------------------------------------- push by uids

  /** One receiver of `pushMessageByUids`: `{uid, sid}`. */
  datatype UidEntry = UidEntry(uid: JsValue, sid: JsValue)

  predicate RoutedTo(e: UidEntry, key: string) {
    !Falsy(e.sid) && ToJsString(e.sid) == key
  }

  /** Reference definition: the user ids of the entries whose server id is
      truthy and has key `key`, in input order. */
  function UidsOn(entries: seq<UidEntry>, key: string): seq<JsValue> {
    if entries == [] then []
    else (if RoutedTo(entries[0], key) then [entries[0].uid] else []) + UidsOn(entries[1..], key)
  }

  lemma {:induction false} UidsOnSnoc(entries: seq<UidEntry>, e: UidEntry)
    ensures forall key :: UidsOn(entries + [e], key) == UidsOn(entries, key) + (if RoutedTo(e, key) then [e.uid] else [])
  {
    if entries != [] {
      assert (entries + [e])[1..] == entries[1..] + [e];
      UidsOnSnoc(entries[1..], e);
    }
  }

  lemma {:induction false} UidsOnHas(entries: seq<UidEntry>, i: nat)
    requires i < |entries| && !Falsy(entries[i].sid)
    ensures entries[i].uid in UidsOn(entries, ToJsString(entries[i].sid))
  {
    if i > 0 {
      assert entries[1..][i - 1] == entries[i];
      UidsOnHas(entries[1..], i - 1);
    }
  }

  lemma {:induction false} UidsOnNone(entries: seq<UidEntry>, key: string)
    requires forall i :: 0 <= i < |entries| ==> Falsy(entries[i].sid)
    ensures UidsOn(entries, key) == []
  {
    if entries != [] {
      UidsOnNone(entries[1..], key);
    }
  }

  /** The grouping loop of `pushMessageByUids`: the helper `add` applied to
      each entry in input order. */
  function GroupByServer(entries: seq<UidEntry>): (g: GroupMap)
    ensures forall k :: k in g ==> g[k] != []
    ensures forall k :: GroupOf(g, k) == UidsOn(entries, k)
    decreases |entries|
  {
    if entries == [] then map[]
    else
      var n := |entries| - 1;
      var prev := GroupByServer(entries[..n]);
      assert entries == entries[..n] + [entries[n]];
      UidsOnSnoc(entries[..n], entries[n]);
      AddToGroup(entries[n].uid, entries[n].sid, prev).groups
  }

  /** Every entry is dropped, and nothing is dispatched, exactly when every
      server id is falsy. */
  lemma AllDroppedIffNoGroups(entries: seq<UidEntry>)
    ensures GroupByServer(entries) == map[] <==> forall i :: 0 <= i < |entries| ==> Falsy(entries[i].sid)
  {
    var g := GroupByServer(entries);
    if forall i :: 0 <= i < |entries| ==> Falsy(entries[i].sid) {
      if g != map[] {
        var k :| k in g;
        UidsOnNone(entries, k);
      }
    } else {
      var i :| 0 <= i < |entries| && !Falsy(entries[i].sid);
      UidsOnHas(entries, i);
      assert GroupOf(g, ToJsString(entries[i].sid)) != [];
    }
  }

  datatype Prepared = Rejected(message: string) | Grouped(groups: GroupMap)

  /** The argument check and grouping of `pushMessageByUids`. */
  function PrepareUids(uids: Option<seq<UidEntry>>): (r: Prepared)
    ensures r.Rejected? <==> uids.None? || uids.value == []
    ensures r.Rejected? ==> r.message == "uids should not be empty"
    ensures r.Grouped? ==> forall k :: k in r.groups ==> r.groups[k] != []
    ensures r.Grouped? ==> forall k :: GroupOf(r.groups, k) == UidsOn(uids.value, k)
  {
    if uids.None? || uids.value == [] then Rejected("uids should not be empty")
    else Grouped(GroupByServer(uids.value))
  }

  /** `pushMessageByUids` with one explicit signature: an absent or empty
      list is rejected before any dispatch; otherwise the grouped ids go
      through the group dispatch. */
  function PushMessageByUids(uids: Option<seq<UidEntry>>, order: seq<string>, localId: string,
                             answers: seq<Answer>, arrivals: seq<Answer>): (r: Outcome)
    requires PrepareUids(uids).Grouped? ==> Collected(PrepareUids(uids).groups, order, localId, answers, arrivals)
    ensures PrepareUids(uids).Rejected? ==> r == Outcome([], Error("uids should not be empty"))
    ensures (uids.Some? && uids.value != [] && forall i :: 0 <= i < |uids.value| ==> Falsy(uids.value[i].sid))
            ==> r == Outcome([], NoArgs)
    ensures PrepareUids(uids).Grouped? ==>
              && r.branches == PlanGroups(PrepareUids(uids).groups, order, localId)
              && multiset(PlannedUids(r.branches)) == MemberBag(PrepareUids(uids).groups)
    ensures PrepareUids(uids).Grouped? && PrepareUids(uids).groups != map[] ==>
              && (r.reply.Error? <==> forall i :: 0 <= i < |answers| ==> answers[i].Failed?)
              && (r.reply.Error? ==> r.reply.message == "all uids push message fail")
              && (!r.reply.Error? ==>
                    && r.reply.Done? && r.reply.failIds.Some?
                    && multiset(r.reply.failIds.value) == multiset(ConcatFails(answers)))
  {
    match PrepareUids(uids)
    case Rejected(msg) => Outcome([], Error(msg))
    case Grouped(groups) =>
      AllDroppedIffNoGroups(uids.value);
      PlanCoversGroups(groups, order, localId);
      if groups == map[] then SendByGroup(groups, order, localId, answers, arrivals)
      else
        SendWithoutSkips(groups, order, localId, answers, arrivals);
        SendByGroup(groups, order, localId, answers, arrivals)
  }

  /** Group dispatch of a map with no empty list: an error iff every server
      answered with an error, otherwise success whose fail ids are, as a bag,
      those of all the answers. */
  lemma SendWithoutSkips(groups: GroupMap, order: seq<string>, localId: string,
                         answers: seq<Answer>, arrivals: seq<Answer>)
    requires Collected(groups, order, localId, answers, arrivals)
    requires forall k :: k in groups ==> groups[k] != []
    requires groups != map[]
    ensures var r := SendByGroup(groups, order, localId, answers, arrivals);
            && (r.reply.Error? <==> forall i :: 0 <= i < |answers| ==> answers[i].Failed?)
            && (!r.reply.Error? ==>
                  && r.reply.Done? && r.reply.failIds.Some?
                  && multiset(r.reply.failIds.value) == multiset(ConcatFails(answers)))
  {
    SendWithoutSkipsFails(groups, order, localId, answers, arrivals);
    var r := SendByGroup(groups, order, localId, answers, arrivals);
    assert r.reply.Error? <==> forall i :: 0 <= i < |order| ==> groups[order[i]] != [] && answers[i].Failed?;
    assert forall i :: 0 <= i < |order| ==> groups[order[i]] != [];
  }

  lemma SendWithoutSkipsFails(groups: GroupMap, order: seq<string>, localId: string,
                              answers: seq<Answer>, arrivals: seq<Answer>)
    requires Collected(groups, order, localId, answers, arrivals)
    requires forall k :: k in groups ==> groups[k] != []
    requires groups != map[]
    ensures var r := SendByGroup(groups, order, localId, answers, arrivals);
            !r.reply.Error? ==>
              && r.reply.Done? && r.reply.failIds.Some?
              && multiset(r.reply.failIds.value) == multiset(ConcatFails(answers))
  {
    NothingSkipped(groups, order, localId, answers);
  }

  /** With no empty list, no branch is skipped, so every outcome is the
      server's own answer. */
  lemma NothingSkipped(groups: GroupMap, order: seq<string>, localId: string, answers: seq<Answer>)
    requires forall i :: 0 <= i < |order| ==> order[i] in groups
    requires forall k :: k in groups ==> groups[k] != []
    requires |answers| == |order|
    ensures Effective(PlanGroups(groups, order, localId), answers) == answers
  {
    var eff := Effective(PlanGroups(groups, order, localId), answers);
    forall i | 0 <= i < |eff| ensures eff[i] == answers[i] {
      assert groups[order[i]] != [];
    }
  }

  /** The receiver list of the two-server scenario below. */
  function TwoReceivers(): seq<UidEntry> {
    [UidEntry(Str("uid1"), Str("A")), UidEntry(Str("uid2"), Str("B"))]
  }

  lemma TwoReceiversGroups()
    ensures GroupByServer(TwoReceivers()) == map["A" := [Str("uid1")], "B" := [Str("uid2")]]
  {
    var entries := TwoReceivers();
    var g := GroupByServer(entries);
    assert entries[1..][1..] == [];
    assert GroupOf(g, "A") == UidsOn(entries, "A") == [Str("uid1")];
    assert GroupOf(g, "B") == UidsOn(entries, "B") == [Str("uid2")];
    forall k | k != "A" && k != "B" ensures k !in g {
      assert !RoutedTo(entries[0], k) && !RoutedTo(entries[1], k);
      assert UidsOn(entries[1..], k) == [];
      assert GroupOf(g, k) == UidsOn(entries, k) == [];
    }
  }

  /** Two receivers on two remote servers; the first server's branch fails
      and the second succeeds. Whatever order the outcomes arrive in, exactly
      two branches are issued and the call succeeds. */
  lemma TwoServerScenario(arrivals: seq<Answer>)
    requires multiset(arrivals) == multiset([Failed, Succeeded([])])
    ensures PrepareUids(Some(TwoReceivers())) == Grouped(map["A" := [Str("uid1")], "B" := [Str("uid2")]])
    ensures Collected(map["A" := [Str("uid1")], "B" := [Str("uid2")]], ["A", "B"], "local",
                      [Failed, Succeeded([])], arrivals)
    ensures var r := PushMessageByUids(Some(TwoReceivers()), ["A", "B"], "local", [Failed, Succeeded([])], arrivals);
            |r.branches| == 2 && r.reply == Done(Some([]))
  {
    TwoReceiversGroups();
    var expected := map["A" := [Str("uid1")], "B" := [Str("uid2")]];
    var plan := PlanGroups(expected, ["A", "B"], "local");
    assert Effective(plan, [Failed, Succeeded([])]) == [Failed, Succeeded([])];
    var r := SendByGroup(expected, ["A", "B"], "local", [Failed, Succeeded([])], arrivals);
    assert ConcatFails([Failed, Succeeded([])]) == [];
    assert multiset(r.reply.failIds.value) == multiset([]);
  }

  /** Three servers: all failing gives an error; one success out of three
      gives success. */
  lemma BroadcastThreeServers(arrivals: seq<Answer>)
    requires multiset(arrivals) == multiset([Failed, Failed, Succeeded([])])
    ensures BroadcastTo(Some(["a", "b", "c"]), "x", [Failed, Failed, Failed], [Failed, Failed, Failed]).reply
            == Error("broadcast fails")
    ensures BroadcastTo(Some(["a", "b", "c"]), "x", [Failed, Failed, Succeeded([])], arrivals).reply == Done(None)
  {
    var all := [Failed, Failed, Failed];
    assert all[0].Failed? && all[1].Failed? && all[2].Failed?;
    var one := [Failed, Failed, Succeeded([])];
    assert !one[2].Failed?;
  }
}

=== FILE: groups.dfy ===
/** The `groups` structure shared by channels and by push-by-uid: a map from
    server-id key to the ordered list of user ids reachable on that server,
    with the helpers `add` and `deleteFrom` and the flattening `getMembers`
    performs. */
module Groups {
  import opened JsValues

  type GroupMap = map<string, seq<JsValue>>

  function Lookup(groups: GroupMap, key: string): Option<seq<JsValue>> {
    if key in groups then Some(groups[key]) else None
  }

  /** The list under `key`, or the empty list when there is none. */
  function GroupOf(groups: GroupMap, key: string): seq<JsValue> {
    if key in groups then groups[key] else []
  }

  datatype Added = Added(ok: bool, groups: GroupMap)

  /** The helper `add(uid, sid, groups)`: a falsy server id is ignored; any
      other appends the user id (whatever it is) to the list of that server,
      creating the list when absent. */
  function AddToGroup(uid: JsValue, sid: JsValue, groups: GroupMap): (r: Added)
    ensures r.ok <==> !Falsy(sid)
    ensures !r.ok ==> r.groups == groups
    ensures r.ok ==> r.groups.Keys == groups.Keys + {ToJsString(sid)}
    ensures r.ok ==> r.groups[ToJsString(sid)] == GroupOf(groups, ToJsString(sid)) + [uid]
    ensures forall k :: k in groups && k != ToJsString(sid) ==> r.groups[k] == groups[k]
  {
    if Falsy(sid) then Added(false, groups)
    else
      var key := ToJsString(sid);
      Added(true, groups[key := GroupOf(groups, key) + [uid]])
  }

  /** Position of the first element strictly equal to `x`, or -1. */
  function IndexOf(s: seq<JsValue>, x: JsValue): (i: int)
    ensures -1 <= i < |s|
    ensures i == -1 <==> x !in s
    ensures 0 <= i ==> s[i] == x && x !in s[..i]
  {
    if s == [] then -1
    else if s[0] == x then 0
    else
      var j := IndexOf(s[1..], x);
      if j == -1 then -1
      else
        assert s[..j + 1] == [s[0]] + s[1..][..j];
        j + 1
  }

  /** Removing the element at position `i`. */
  function RemoveAt(s: seq<JsValue>, i: nat): (r: seq<JsValue>)
    requires i < |s|
    ensures |r| == |s| - 1
    ensures forall j :: 0 <= j < i ==> r[j] == s[j]
    ensures forall j :: i <= j < |r| ==> r[j] == s[j + 1]
    ensures multiset(r) == multiset(s) - multiset{s[i]}
  {
    assert s == s[..i] + [s[i]] + s[i + 1..];
    s[..i] + s[i + 1..]
  }

  /** Removing one position keeps every other value that was listed. */
  lemma RemoveAtKeepsOthers(s: seq<JsValue>, i: nat, x: JsValue)
    requires i < |s| && x in s && x != s[i]
    ensures x in RemoveAt(s, i)
  {
    assert x in multiset(s);
  }

  /** The outcome of `deleteFrom`: whether an element was removed, and the
      list afterwards (`None` when there was no list). */
  datatype Deleted = Deleted(found: bool, group: Option<seq<JsValue>>)

  /** The helper `deleteFrom(uid, sid, group)`: with a falsy id or no list it
      does nothing; otherwise it removes the first element `===` uid, if any. */
  function DeleteFrom(uid: JsValue, sid: JsValue, group: Option<seq<JsValue>>): (r: Deleted)
    ensures r.found <==> !Falsy(uid) && !Falsy(sid) && group.Some? && uid in group.value
    ensures !r.found ==> r.group == group
    ensures r.found ==> r.group.Some? && multiset(r.group.value) == multiset(group.value) - multiset{uid}
    ensures r.found ==> exists i :: 0 <= i < |group.value| && group.value[i] == uid && uid !in group.value[..i]
                                 && r.group.value == group.value[..i] + group.value[i + 1..]
  {
    if Falsy(uid) || Falsy(sid) || group.None? then Deleted(false, group)
    else
      var i := IndexOf(group.value, uid);
      if i == -1 then Deleted(false, group)
      else Deleted(true, Some(RemoveAt(group.value, i)))
  }

  /** The bag of all user ids held in all lists, one copy per entry. The key
      picked first does not matter (see BagPick). */
  ghost function MemberBag(groups: GroupMap): multiset<JsValue>
    decreases |groups|
  {
    if groups.Keys == {} then multiset{}
    else
      var k :| k in groups.Keys;
      multiset(groups[k]) + MemberBag(groups - {k})
  }

  /** Any key may be taken out of the bag first. */
  lemma {:induction false} BagPick(groups: GroupMap, k: string)
    requires k in groups
    ensures MemberBag(groups) == multiset(groups[k]) + MemberBag(groups - {k})
    decreases |groups|
  {
    var k0 :| k0 in groups.Keys && MemberBag(groups) == multiset(groups[k0]) + MemberBag(groups - {k0});
    if k0 != k {
      var rest := groups - {k0};
      BagPick(rest, k);
      var both := groups - {k0} - {k};
      assert rest - {k} == both;
      BagPick(groups - {k}, k0);
      assert groups - {k} - {k0} == both;
    }
  }

  /** Replacing the list under one key changes the bag by exactly the two
      lists' difference. */
  lemma BagUpdate(groups: GroupMap, k: string, s: seq<JsValue>)
    ensures MemberBag(groups[k := s]) + multiset(GroupOf(groups, k)) == MemberBag(groups) + multiset(s)
  {
    var g' := groups[k := s];
    BagPick(g', k);
    if k in groups {
      BagPick(groups, k);
      assert g' - {k} == groups - {k};
    } else {
      assert g' - {k} == groups;
    }
  }

  /** Appending one user to a list adds exactly that user to the bag. */
  lemma BagAppend(groups: GroupMap, k: string, x: JsValue)
    ensures MemberBag(groups[k := GroupOf(groups, k) + [x]]) == MemberBag(groups) + multiset{x}
  {
    var s := GroupOf(groups, k);
    var after := MemberBag(groups[k := s + [x]]);
    BagUpdate(groups, k, s + [x]);
    assert multiset(s + [x]) == multiset(s) + multiset{x};
    forall y
      ensures after[y] == (MemberBag(groups) + multiset{x})[y]
    {
      assert (after + multiset(s))[y] == (MemberBag(groups) + multiset(s + [x]))[y];
    }
  }


  /** Removing one entry from a list removes exactly that user from the bag. */
  lemma BagRemoveAt(groups: GroupMap, k: string, i: nat)
    requires k in groups && i < |groups[k]|
    ensures MemberBag(groups[k := RemoveAt(groups[k], i)]) == MemberBag(groups) - multiset{groups[k][i]}
    ensures groups[k][i] in MemberBag(groups)
  {
    var s := groups[k];
    var g' := groups[k := RemoveAt(s, i)];
    BagPick(g', k);
    BagPick(groups, k);
    assert g' - {k} == groups - {k};
    assert multiset(s) == multiset(RemoveAt(s, i)) + multiset{s[i]};
  }

  /** Removing a key whose list is empty leaves the bag unchanged. */
  lemma BagDropEmpty(groups: GroupMap, k: string)
    requires k in groups && groups[k] == []
    ensures MemberBag(groups - {k}) == MemberBag(groups)
  {
    BagPick(groups, k);
  }

  /** An element of a list is in the bag. */
  lemma BagHas(groups: GroupMap, k: string, x: JsValue)
    requires k in groups && x in groups[k]
    ensures x in MemberBag(groups)
  {
    BagPick(groups, k);
  }

  /** `order` lists every key of `keys` exactly once: the order in which a
      `for ... in` loop visits an object's properties. */
  predicate IsEnumeration(order: seq<string>, keys: set<string>) {
    && (forall i, j :: 0 <= i < j < |order| ==> order[i] != order[j])
    && (forall i :: 0 <= i < |order| ==> order[i] in keys)
    && (forall k :: k in keys ==> k in order)
  }

  /** The lists of the keys in `order`, concatenated in that order. */
  function Flatten(groups: GroupMap, order: seq<string>): seq<JsValue>
    requires forall i :: 0 <= i < |order| ==> order[i] in groups
  {
    if order == [] then [] else groups[order[0]] + Flatten(groups, order[1..])
  }

  lemma {:induction false} FlattenAgrees(g1: GroupMap, g2: GroupMap, order: seq<string>)
    requires forall i :: 0 <= i < |order| ==> order[i] in g1 && order[i] in g2 && g1[order[i]] == g2[order[i]]
    ensures Flatten(g1, order) == Flatten(g2, order)
  {
    if order != [] {
      FlattenAgrees(g1, g2, order[1..]);
    }
  }

  /** Whatever order the keys are visited in, the flattened lists hold
      exactly the bag of all entries. */
  lemma {:induction false} FlattenIsBag(groups: GroupMap, order: seq<string>)
    requires IsEnumeration(order, groups.Keys)
    ensures multiset(Flatten(groups, order)) == MemberBag(groups)
  {
    if order == [] {
      assert groups.Keys == {};
    } else {
      var k := order[0];
      var rest := groups - {k};
      assert IsEnumeration(order[1..], rest.Keys) by {
        forall x | x in rest.Keys ensures x in order[1..] {
          var i :| 0 <= i < |order| && order[i] == x;
          assert i != 0;
          assert order[1..][i - 1] == x;
        }
      }
      FlattenIsBag(rest, order[1..]);
      FlattenAgrees(groups, rest, order[1..]);
      BagPick(groups, k);
    }
  }
}

=== FILE: js_values.dfy ===
/** The JavaScript values the channel service handles as user ids, server ids
    and key prefixes, together with the few pieces of JavaScript semantics it
    relies on: truthiness, conversion to a property key or string, and the
    string methods `split` and `slice`. */
module JsValues {

  datatype Option<+T> = None | Some(value: T)

  /** The integers a JavaScript number holds exactly: up to
      `Number.MAX_SAFE_INTEGER` (2^53 - 1) in magnitude. All of them print as
      plain decimal digits, with no exponent. */
  const MaxSafeInteger: int := 0x1F_FFFF_FFFF_FFFF

  type SafeInteger = n: int | -MaxSafeInteger <= n <= MaxSafeInteger

  /** A user id, server id or prefix as the service receives it. Numbers are
      safe integers (fractions, NaN, -0 and integers beyond 2^53 - 1 are not
      represented); strict equality `===` on these values is Dafny's `==`. */
  datatype JsValue = Undefined | Null | Num(n: SafeInteger) | Str(s: string)

  /** JavaScript falsiness, restricted to the values above. */
  predicate Falsy(v: JsValue) {
    v == Undefined || v == Null || v == Num(0) || v == Str("")
  }

  function Digit(d: nat): char
    requires d < 10
  {
    "0123456789"[d]
  }

  function NatToString(n: nat): string
    decreases n
  {
    if n < 10 then [Digit(n)] else NatToString(n / 10) + [Digit(n % 10)]
  }

  /** The string a value becomes when it is used as an object key or joined
      with `+` to a string. */
  function ToJsString(v: JsValue): string {
    match v
    case Undefined => "undefined"
    case Null => "null"
    case Num(n) => if n < 0 then "-" + NatToString(-n) else NatToString(n)
    case Str(s) => s
  }

  /** Joins parts with the separator between consecutive parts. */
  function Join(parts: seq<string>, sep: char): string
    requires |parts| >= 1
  {
    if |parts| == 1 then parts[0] else parts[0] + [sep] + Join(parts[1..], sep)
  }

  /** `s.split(sep)` for a one-character separator: the maximal separator-free
      pieces, in order; the empty string splits into one empty piece. */
  function Split(s: string, sep: char): (r: seq<string>)
    ensures |r| >= 1
    ensures forall i :: 0 <= i < |r| ==> sep !in r[i]
    ensures Join(r, sep) == s
    decreases |s|
  {
    if |s| == 0 then [""]
    else
      var rest := Split(s[1..], sep);
      if s[0] == sep then
        assert s == [sep] + s[1..];
        [""] + rest
      else
        var r := [[s[0]] + rest[0]] + rest[1..];
        assert r[1..] == rest[1..];
        assert s == [s[0]] + s[1..];
        r
  }

  /** A separator-free string splits into itself. */
  lemma {:induction false} SplitWithoutSeparator(a: string, sep: char)
    requires sep !in a
    ensures Split(a, sep) == [a]
    decreases |a|
  {
    if |a| > 0 {
      SplitWithoutSeparator(a[1..], sep);
      assert [a[0]] + a[1..] == a;
    }
  }

  /** Splitting at the first separator yields the separator-free head
      followed by the pieces of the remainder. */
  lemma {:induction false} SplitAtFirstSeparator(a: string, b: string, sep: char)
    requires sep !in a
    ensures Split(a + [sep] + b, sep) == [a] + Split(b, sep)
    decreases |a|
  {
    var s := a + [sep] + b;
    if |a| == 0 {
      assert s[1..] == b;
    } else {
      assert s[1..] == a[1..] + [sep] + b;
      SplitAtFirstSeparator(a[1..], b, sep);
      assert [a[0]] + a[1..] == a;
    }
  }

  /** `s.slice(start)` for a non-negative start. */
  function Slice(s: string, start: nat): (r: string)
    ensures start <= |s| ==> s == s[..start] + r
    ensures start >= |s| ==> r == ""
  {
    if start <= |s| then s[start..] else ""
  }
}

=== FILE: registry.dfy ===
/** The channel service's registry: the map from channel name to channel
    owned by one server process, with creation, lookup and destruction and
    the store writes each issues. */
module Registry {
  import opened JsValues
  import opened StoreKeys
  import opened Channels

  datatype Service = Service(cfg: Config, channels: map<string, Channel>)

  /** A registry operation's new service, the channel it returns (if any),
      and its store writes. */
  datatype Fetched = Fetched(service: Service, channel: Option<Channel>, ops: seq<StoreOp>)

  /** `createChannel(name)`: a registered name returns its channel and
      changes nothing; otherwise a fresh INITED channel is registered and its
      member-set key is added to the channel set. */
  function CreateChannel(svc: Service, name: string): (r: Fetched)
    ensures name in svc.channels ==> r == Fetched(svc, Some(svc.channels[name]), [])
    ensures name !in svc.channels ==>
              && r.channel == Some(NewChannel(name))
              && r.service == Service(svc.cfg, svc.channels[name := NewChannel(name)])
              && r.ops == Emit(svc.cfg, StoreOp.Add(ChannelSetKey(svc.cfg), GenKey(svc.cfg, name)))
  {
    if name in svc.channels then Fetched(svc, Some(svc.channels[name]), [])
    else
      var c := NewChannel(name);
      Fetched(Service(svc.cfg, svc.channels[name := c]), Some(c),
              Emit(svc.cfg, StoreOp.Add(ChannelSetKey(svc.cfg), GenKey(svc.cfg, name))))
  }

  /** `getChannel(name, create)`: the registered channel if any; otherwise,
      only when `create` is truthy, the same creation as `createChannel`. */
  function GetChannel(svc: Service, name: string, create: JsValue): (r: Fetched)
    ensures name in svc.channels ==> r == Fetched(svc, Some(svc.channels[name]), [])
    ensures name !in svc.channels && Falsy(create) ==> r == Fetched(svc, None, [])
    ensures name !in svc.channels && !Falsy(create) ==> r == CreateChannel(svc, name)
    ensures Falsy(create) ==> r.service == svc && r.ops == []
  {
    if name in svc.channels then Fetched(svc, Some(svc.channels[name]), [])
    else if Falsy(create) then Fetched(svc, None, [])
    else
      var c := NewChannel(name);
      Fetched(Service(svc.cfg, svc.channels[name := c]), Some(c),
              Emit(svc.cfg, StoreOp.Add(ChannelSetKey(svc.cfg), GenKey(svc.cfg, name))))
  }

  datatype Dropped = Dropped(service: Service, ops: seq<StoreOp>)

  /** `destroyChannel(name)`: only that name leaves the registry, and the
      channel-set entry and the whole member set are removed from the store
      whether or not the name was registered. */
  function DestroyChannel(svc: Service, name: string): (r: Dropped)
    ensures r.service.cfg == svc.cfg
    ensures name !in r.service.channels
    ensures forall n :: n != name ==> (n in r.service.channels <==> n in svc.channels)
    ensures forall n :: n in r.service.channels ==> r.service.channels[n] == svc.channels[n]
    ensures r.ops == Emit(svc.cfg, Remove(ChannelSetKey(svc.cfg), GenKey(svc.cfg, name)))
                     + Emit(svc.cfg, RemoveAll(GenKey(svc.cfg, name)))
  {
    Dropped(Service(svc.cfg, svc.channels - {name}),
            Emit(svc.cfg, Remove(ChannelSetKey(svc.cfg), GenKey(svc.cfg, name)))
            + Emit(svc.cfg, RemoveAll(GenKey(svc.cfg, name))))
  }

  datatype Closed = Closed(service: Service, channel: Channel, ops: seq<StoreOp>)

  /** `Channel.destroy()`: the channel becomes DESTROYED and the service
      destroys whatever is registered under the channel's name. */
  function DestroyOwnChannel(svc: Service, ch: Channel): (r: Closed)
    ensures r.channel.state == Destroyed
    ensures r.channel == ch.(state := Destroyed)
    ensures ch.name !in r.service.channels
    ensures r.service == DestroyChannel(svc, ch.name).service && r.ops == DestroyChannel(svc, ch.name).ops
  {
    var d := DestroyChannel(svc, ch.name);
    Closed(d.service, ch.(state := Destroyed), d.ops)
  }

  /** Creating twice is creating once: the second call returns the channel
      the first registered, with no further change and no store write. */
  lemma CreateIsIdempotent(svc: Service, name: string)
    ensures var first := CreateChannel(svc, name);
            CreateChannel(first.service, name) == Fetched(first.service, first.channel, [])
  {
  }

  /** A name destroyed and created again gets an empty, INITED channel: the
      old membership does not come back. */
  lemma DestroyThenCreateIsFresh(svc: Service, name: string)
    ensures CreateChannel(DestroyChannel(svc, name).service, name).channel == Some(NewChannel(name))
  {
  }

  /** The channel-set entry written on creation names the channel: restore
      reads the same name back from it. */
  lemma CreatedEntryNamesChannel(svc: Service, name: string)
    requires name !in svc.channels && svc.cfg.hasStore
    ensures var r := CreateChannel(svc, name);
            |r.ops| == 1 && r.ops[0].Add? && r.ops[0].key == ChannelSetKey(svc.cfg)
            && ChannelNameOf(svc.cfg, r.ops[0].value) == name
  {
    ChannelNameRoundTrip(svc.cfg, name);
  }
}

=== FILE: restore.dfy ===
/** Restoring the channels of this server process from the store at start:
    the channel-set entries name the channels, and each channel's member set
    holds its `"sid:uid"` entries. Loads are asynchronous in the service; the
    model takes their results as parameters (`loads[i]` is what the member
    set of the i-th listed channel returned) and gives the state once every
    load has been applied. */
module Restore {
  import opened JsValues
  import opened StoreKeys
  import opened Groups
  import opened Dispatch
  import opened Channels
  import opened Registry

  // ------------------------------------------------------ one channel's items

  /** Restore's insertion of one member-set entry: the entry is decoded and
      put through the helper `add`; on success the record is set. The
      counter is not touched and nothing is written to the store. */
  function RestoreInsert(ch: Channel, item: string): (r: Channel)
    ensures r.name == ch.name && r.state == ch.state && r.userAmount == ch.userAmount
  {
    var m := DecodeMember(item);
    var a := AddToGroup(m.uid, m.sid, ch.groups);
    if a.ok then ch.(groups := a.groups, records := ch.records[ToJsString(m.uid) := m]) else ch
  }

  /** Inserting a restored entry has exactly the in-memory effect of
      `Channel.add` with the decoded ids on an INITED channel, except that the
      counter stays where it was. */
  lemma RestoreInsertIsAddWithoutCount(cfg: Config, ch: Channel, item: string)
    requires ch.state == Inited
    ensures var m := DecodeMember(item);
            RestoreInsert(ch, item) == Channels.Add(cfg, ch, m.uid, m.sid).channel.(userAmount := ch.userAmount)
  {
  }

  /** The user ids the entries restore, in order: one per entry whose server
      id is truthy. */
  function DecodedUids(items: seq<string>): seq<JsValue> {
    if items == [] then []
    else
      var m := DecodeMember(items[0]);
      (if !Falsy(m.sid) then [m.uid] else []) + DecodedUids(items[1..])
  }

  /** The loop over a member-set load: every entry inserted in order. The
      channel's counter is never changed, its invariants are kept, and its
      entries grow by exactly the decoded user ids. */
  function RestoreMembers(ch: Channel, items: seq<string>): (r: Channel)
    ensures r.name == ch.name && r.state == ch.state && r.userAmount == ch.userAmount
    ensures MemberBag(r.groups) == MemberBag(ch.groups) + multiset(DecodedUids(items))
    ensures Wf(ch) ==> Wf(r)
    decreases |items|
  {
    if items == [] then ch
    else
      var c := RestoreInsert(ch, items[0]);
      RestoreInsertKeepsWf(ch, items[0]);
      RestoreMembers(c, items[1..])
  }

  lemma RestoreInsertKeepsWf(ch: Channel, item: string)
    ensures MemberBag(RestoreInsert(ch, item).groups)
            == MemberBag(ch.groups) + (if !Falsy(DecodeMember(item).sid) then multiset{DecodeMember(item).uid} else multiset{})
    ensures Wf(ch) ==> Wf(RestoreInsert(ch, item))
  {
    var cfg := Config(Undefined, "", false);
    var inited := ch.(state := Inited);
    var m := DecodeMember(item);
    RestoreInsertIsAddWithoutCount(cfg, inited, item);
    AddBag(cfg, inited, m.uid, m.sid);
    if Wf(ch) {
      AddKeepsWf(cfg, inited, m.uid, m.sid);
    }
  }

  /** A user id restored from two entries keeps the record of the later
      one: with `u` stored under `s1` and `s2`, the order of the two entries
      decides which server id `getMember("u")` reports. */
  lemma RecordFollowsLastEntry(name: string)
    ensures var c := RestoreMembers(NewChannel(name), ["s1:u", "s2:u"]);
            "u" in c.records && c.records["u"] == Member(Str("s2"), Str("u"))
    ensures var c := RestoreMembers(NewChannel(name), ["s2:u", "s1:u"]);
            "u" in c.records && c.records["u"] == Member(Str("s1"), Str("u"))
  {
    DecodesTo("s1", "u");
    DecodesTo("s2", "u");
    assert "s1" + ":" + "u" == "s1:u" && "s2" + ":" + "u" == "s2:u";
    assert ToJsString(Str("u")) == "u";
    LastRecordWins(NewChannel(name), "s1:u", "s2:u");
    LastRecordWins(NewChannel(name), "s2:u", "s1:u");
  }

  lemma DecodesTo(sid: string, uid: string)
    requires sid != "" && ':' !in sid && ':' !in uid
    ensures DecodeMember(sid + ":" + uid) == Member(Str(sid), Str(uid))
  {
    DecodeGenValue(Str(sid), Str(uid));
    assert GenValue(Str(sid), Str(uid)) == sid + ":" + uid;
  }

  /** Restoring two entries that decode to the same user id with truthy
      server ids leaves the record of the second. */
  lemma LastRecordWins(ch: Channel, first: string, second: string)
    requires DecodeMember(first).uid == DecodeMember(second).uid
    requires !Falsy(DecodeMember(first).sid) && !Falsy(DecodeMember(second).sid)
    ensures var c := RestoreMembers(ch, [first, second]);
            var key := ToJsString(DecodeMember(second).uid);
            key in c.records && c.records[key] == DecodeMember(second)
  {
    var c1 := RestoreInsert(ch, first);
    var c2 := RestoreInsert(c1, second);
    assert [first, second][1..] == [second] && [second][1..] == [];
    assert RestoreMembers(ch, [first, second]) == RestoreMembers(c1, [second]);
    assert RestoreMembers(c1, [second]) == RestoreMembers(c2, []);
  }

  /** A restored channel reports 0 users however many entries it holds. */
  lemma RestoredChannelCountsZero(name: string, items: seq<string>)
    ensures UserAmount(RestoreMembers(NewChannel(name), items)) == 0
    ensures |MemberBag(RestoreMembers(NewChannel(name), items).groups)| == |DecodedUids(items)|
  {
    NewChannelWf(name);
  }

  // ------------------------------------------------------------- round trip

  /** The in-memory effect of adding members one after another. */
  function AddAll(cfg: Config, ch: Channel, members: seq<Member>): Channel
    decreases |members|
  {
    if members == [] then ch
    else AddAll(cfg, Channels.Add(cfg, ch, members[0].uid, members[0].sid).channel, members[1..])
  }

  /** The member-set entries those adds write, in the same order. */
  function EncodeAll(members: seq<Member>): (items: seq<string>)
    ensures |items| == |members|
  {
    if members == [] then [] else [GenValue(members[0].sid, members[0].uid)] + EncodeAll(members[1..])
  }

  predicate StoreSafe(m: Member) {
    m.sid.Str? && m.uid.Str? && ':' !in m.sid.s && ':' !in m.uid.s
  }

  lemma {:induction false} AddAllIgnoresCount(cfg: Config, ch: Channel, members: seq<Member>, n: nat)
    ensures AddAll(cfg, ch.(userAmount := n), members).(userAmount := 0) == AddAll(cfg, ch, members).(userAmount := 0)
    decreases |members|
  {
    if members != [] {
      var m := members[0];
      var a := Channels.Add(cfg, ch, m.uid, m.sid);
      var b := Channels.Add(cfg, ch.(userAmount := n), m.uid, m.sid);
      assert b.channel == a.channel.(userAmount := b.channel.userAmount);
      AddAllIgnoresCount(cfg, a.channel, members[1..], b.channel.userAmount);
    }
  }

  /** Restoring the entries that a sequence of adds wrote rebuilds the
      channel those adds built, members and records alike, when the ids are
      strings without a colon; only the counter is not rebuilt. */
  lemma {:induction false} RestoreReplaysAdds(cfg: Config, ch: Channel, members: seq<Member>)
    requires ch.state == Inited
    requires forall i :: 0 <= i < |members| ==> StoreSafe(members[i])
    ensures RestoreMembers(ch, EncodeAll(members)).(userAmount := 0) == AddAll(cfg, ch, members).(userAmount := 0)
    decreases |members|
  {
    if members != [] {
      var m := members[0];
      var items := EncodeAll(members);
      assert items[0] == GenValue(m.sid, m.uid) && items[1..] == EncodeAll(members[1..]);
      DecodeGenValue(m.sid, m.uid);
      var a := Channels.Add(cfg, ch, m.uid, m.sid);
      RestoreInsertIsAddWithoutCount(cfg, ch, items[0]);
      var c := RestoreInsert(ch, items[0]);
      assert c == a.channel.(userAmount := ch.userAmount);
      RestoreReplaysAdds(cfg, c, members[1..]);
      AddAllIgnoresCount(cfg, a.channel, members[1..], ch.userAmount);
    }
  }

  // ------------------------------------------------ round trip through a set

  /** Whether user id `u` is listed under server key `k`. */
  predicate Listed(groups: GroupMap, k: string, u: JsValue) {
    u in GroupOf(groups, k)
  }

  /** Whether a member-set entry, once restored, lists `u` under `k`. */
  predicate EntryLists(item: string, k: string, u: JsValue) {
    var m := DecodeMember(item);
    !Falsy(m.sid) && ToJsString(m.sid) == k && m.uid == u
  }

  /** Restoring one entry lists exactly what was listed before plus what the
      entry names. */
  lemma RestoreInsertListed(ch: Channel, item: string, k: string, u: JsValue)
    ensures Listed(RestoreInsert(ch, item).groups, k, u) <==> Listed(ch.groups, k, u) || EntryLists(item, k, u)
  {
  }

  /** After a load, a user id is listed under a key exactly when it was
      listed there before or some entry of the load names it there. */
  lemma {:induction false} RestoreMembersListed(ch: Channel, items: seq<string>, k: string, u: JsValue)
    ensures Listed(RestoreMembers(ch, items).groups, k, u)
            <==> Listed(ch.groups, k, u) || exists i :: 0 <= i < |items| && EntryLists(items[i], k, u)
    decreases |items|
  {
    if items != [] {
      RestoreInsertListed(ch, items[0], k, u);
      RestoreMembersListed(RestoreInsert(ch, items[0]), items[1..], k, u);
      if exists i :: 0 <= i < |items| && EntryLists(items[i], k, u) {
        var i :| 0 <= i < |items| && EntryLists(items[i], k, u);
        if i > 0 {
          assert items[1..][i - 1] == items[i];
        }
      }
      if exists i :: 0 <= i < |items| - 1 && EntryLists(items[1..][i], k, u) {
        var i :| 0 <= i < |items| - 1 && EntryLists(items[1..][i], k, u);
        assert items[1..][i] == items[i + 1];
      }
    }
  }

  /** The store keeps a member set: each entry once, handed back in any
      order. Restoring any listing that holds exactly the entries a sequence
      of adds wrote lists the same user ids under the same server ids as
      those adds did. */
  lemma RestoreFromSetStore(cfg: Config, ch: Channel, members: seq<Member>, items: seq<string>)
    requires ch.state == Inited
    requires forall i :: 0 <= i < |members| ==> StoreSafe(members[i])
    requires forall x :: x in items <==> x in EncodeAll(members)
    ensures forall k, u :: Listed(RestoreMembers(ch, items).groups, k, u) <==> Listed(AddAll(cfg, ch, members).groups, k, u)
  {
    var enc := EncodeAll(members);
    RestoreReplaysAdds(cfg, ch, members);
    assert AddAll(cfg, ch, members).groups == RestoreMembers(ch, enc).groups;
    forall k, u
      ensures Listed(RestoreMembers(ch, items).groups, k, u) <==> Listed(RestoreMembers(ch, enc).groups, k, u)
    {
      RestoreMembersListed(ch, items, k, u);
      RestoreMembersListed(ch, enc, k, u);
      if exists i :: 0 <= i < |items| && EntryLists(items[i], k, u) {
        var i :| 0 <= i < |items| && EntryLists(items[i], k, u);
        assert items[i] in enc;
        var j :| 0 <= j < |enc| && enc[j] == items[i];
      }
      if exists j :: 0 <= j < |enc| && EntryLists(enc[j], k, u) {
        var j :| 0 <= j < |enc| && EntryLists(enc[j], k, u);
        assert enc[j] in items;
        var i :| 0 <= i < |items| && items[i] == enc[j];
      }
    }
  }

  /** `add` writes its member entry even when it rejects a falsy server id.
      For `undefined`, `null` and `0` that entry reads back with the server id
      `"undefined"`, `"null"` or `"0"`, a truthy string, so restore lists the
      user whom the add turned away. */
  lemma RejectedAddIsRestored(cfg: Config, ch: Channel, uid: string, sid: JsValue)
    requires ch.state == Inited && Falsy(sid) && !sid.Str? && ':' !in uid
    ensures var r := Channels.Add(cfg, ch, Str(uid), sid);
            && !r.ok && r.channel == ch
            && r.ops == Emit(cfg, StoreOp.Add(GenKey(cfg, ch.name), GenValue(sid, Str(uid))))
    ensures ToJsString(sid) in {"undefined", "null", "0"}
    ensures Listed(RestoreMembers(ch, [GenValue(sid, Str(uid))]).groups, ToJsString(sid), Str(uid))
  {
    var item := GenValue(sid, Str(uid));
    RejectedSidReadsBackTruthy(sid);
    DecodeGenValue(sid, Str(uid));
    RestoreInsertListed(ch, item, ToJsString(sid), Str(uid));
    assert [item][1..] == [];
    assert RestoreMembers(ch, [item]) == RestoreInsert(ch, item);
  }

  /** The string a falsy non-string id converts to is truthy and colon-free. */
  lemma RejectedSidReadsBackTruthy(sid: JsValue)
    requires Falsy(sid) && !sid.Str?
    ensures ToJsString(sid) in {"undefined", "null", "0"}
    ensures !Falsy(Str(ToJsString(sid))) && ':' !in ToJsString(sid)
  {
  }

  // ------------------------------------------------------------ the service

  /** The channel names restore reads off the channel-set entries. */
  function NamesOf(cfg: Config, entries: seq<string>): (names: seq<string>)
    ensures |names| == |entries|
    ensures forall i :: 0 <= i < |entries| ==> names[i] == ChannelNameOf(cfg, entries[i])
  {
    seq(|entries|, i requires 0 <= i < |entries| => ChannelNameOf(cfg, entries[i]))
  }

  /** Restore reads back exactly the names whose channel-set entries
      `createChannel` wrote, in the order they are listed. */
  lemma NamesOfRoundTrip(cfg: Config, entries: seq<string>, names: seq<string>)
    requires |names| == |entries|
    requires forall i :: 0 <= i < |entries| ==> entries[i] == GenKey(cfg, names[i])
    ensures NamesOf(cfg, entries) == names
  {
    forall i | 0 <= i < |entries|
      ensures NamesOf(cfg, entries)[i] == names[i]
    {
      ChannelNameRoundTrip(cfg, names[i]);
    }
  }

  /** The loop at start: a fresh channel registered under every listed name,
      replacing whatever was registered there. */
  function CreateListed(channels: map<string, Channel>, names: seq<string>): (r: map<string, Channel>)
    ensures forall i :: 0 <= i < |names| ==> names[i] in r && r[names[i]] == NewChannel(names[i])
    ensures forall n :: n !in names ==> (n in r <==> n in channels)
    ensures forall n :: n !in names && n in channels ==> r[n] == channels[n]
    decreases |names|
  {
    if names == [] then channels
    else CreateListed(channels[names[0] := NewChannel(names[0])], names[1..])
  }

  /** Each load applied, in list order, to the channel registered under its
      own name; channels not listed are untouched and no counter moves. */
  function FillListed(channels: map<string, Channel>, names: seq<string>, loads: seq<seq<string>>)
    : (r: map<string, Channel>)
    requires |loads| == |names|
    requires forall i :: 0 <= i < |names| ==> names[i] in channels
    ensures r.Keys == channels.Keys
    ensures forall n :: n in channels && n !in names ==> r[n] == channels[n]
    ensures forall n :: n in channels ==> r[n].userAmount == channels[n].userAmount
    decreases |names|
  {
    if names == [] then channels
    else
      var n := names[0];
      var c := channels[n := RestoreMembers(channels[n], loads[0])];
      assert forall m :: m !in names ==> m != n && m !in names[1..];
      FillListed(c, names[1..], loads[1..])
  }

  /** With distinct names, every listed channel ends up with exactly its own
      load's entries. */
  lemma {:induction false} FillListedRestoresEach(channels: map<string, Channel>, names: seq<string>, loads: seq<seq<string>>)
    requires |loads| == |names|
    requires forall i :: 0 <= i < |names| ==> names[i] in channels
    requires forall i, j :: 0 <= i < j < |names| ==> names[i] != names[j]
    ensures forall i :: 0 <= i < |names| ==>
              FillListed(channels, names, loads)[names[i]] == RestoreMembers(channels[names[i]], loads[i])
    decreases |names|
  {
    if names != [] {
      var n := names[0];
      var c := channels[n := RestoreMembers(channels[n], loads[0])];
      var r := FillListed(channels, names, loads);
      assert r == FillListed(c, names[1..], loads[1..]);
      FillListedRestoresEach(c, names[1..], loads[1..]);
      assert n !in names[1..];
      forall i | 0 <= i < |names|
        ensures r[names[i]] == RestoreMembers(channels[names[i]], loads[i])
      {
        if i > 0 {
          assert names[i] == names[1..][i - 1] && loads[i] == loads[1..][i - 1];
        }
      }
    }
  }

  /** Restore with each channel's members loaded into that channel: the
      behaviour the loop evidently intends. Every listed channel is present
      and reports 0 users; channels not listed are untouched. */
  function RestoreChannels(svc: Service, entries: seq<string>, loads: seq<seq<string>>): (r: Service)
    requires |loads| == |entries|
    ensures r.cfg == svc.cfg
    ensures forall n :: n in svc.channels && n !in NamesOf(svc.cfg, entries) ==>
              n in r.channels && r.channels[n] == svc.channels[n]
    ensures var names := NamesOf(svc.cfg, entries);
            forall i :: 0 <= i < |names| ==> names[i] in r.channels && r.channels[names[i]].userAmount == 0
  {
    var names := NamesOf(svc.cfg, entries);
    Service(svc.cfg, FillListed(CreateListed(svc.channels, names), names, loads))
  }

  /** With distinct channel names, each listed channel holds exactly the
      entries of its own member set. */
  lemma RestoreChannelsRestoresEach(svc: Service, entries: seq<string>, loads: seq<seq<string>>)
    requires |loads| == |entries|
    ensures var names := NamesOf(svc.cfg, entries);
            (forall i, j :: 0 <= i < j < |names| ==> names[i] != names[j]) ==>
              forall i :: 0 <= i < |names| ==>
                RestoreChannels(svc, entries, loads).channels[names[i]] == RestoreMembers(NewChannel(names[i]), loads[i])
  {
    var names := NamesOf(svc.cfg, entries);
    if forall i, j :: 0 <= i < j < |names| ==> names[i] != names[j] {
      FillListedRestoresEach(CreateListed(svc.channels, names), names, loads);
    }
  }

  /** Restore as written: the load callbacks read the function-scoped `name`
      only after the loop has finished, so every member lands in the channel
      of the LAST listed entry, and every other listed channel stays empty. */
  function RestoreAsWritten(svc: Service, entries: seq<string>, loads: seq<seq<string>>): (r: Service)
    requires |loads| == |entries| && |entries| > 0
    ensures r.cfg == svc.cfg
    ensures forall n :: n in svc.channels && n !in NamesOf(svc.cfg, entries) ==>
              n in r.channels && r.channels[n] == svc.channels[n]
    ensures var names := NamesOf(svc.cfg, entries);
            var last := names[|names| - 1];
            && last in r.channels
            && r.channels[last] == RestoreMembers(NewChannel(last), Flat(loads))
            && forall i :: 0 <= i < |names| && names[i] != last ==>
                 names[i] in r.channels && r.channels[names[i]] == NewChannel(names[i])
  {
    var names := NamesOf(svc.cfg, entries);
    var created := CreateListed(svc.channels, names);
    var last := names[|names| - 1];
    assert created[last] == NewChannel(last);
    Service(svc.cfg, created[last := RestoreMembers(created[last], Flat(loads))])
  }

  function Flat(loads: seq<seq<string>>): seq<string> {
    if loads == [] then [] else loads[0] + Flat(loads[1..])
  }

  /** The single entry `"s1:u1"` restores user `"u1"` on server `"s1"`. */
  lemma RestoreOneEntry(name: string)
    ensures RestoreMembers(NewChannel(name), ["s1:u1"]).groups == map["s1" := [Str("u1")]]
  {
    DecodeGenValue(Str("s1"), Str("u1"));
    assert GenValue(Str("s1"), Str("u1")) == "s1:u1";
    var m := DecodeMember("s1:u1");
    assert m == Member(Str("s1"), Str("u1"));
    var c := RestoreInsert(NewChannel(name), "s1:u1");
    assert c.groups == AddToGroup(m.uid, m.sid, map[]).groups;
    assert ToJsString(m.sid) == "s1" && GroupOf(map[], "s1") == [];
    assert GroupOf(map[], "s1") + [Str("u1")] == [Str("u1")];
    assert ["s1:u1"][1..] == [];
    assert RestoreMembers(NewChannel(name), ["s1:u1"]) == RestoreMembers(c, []);
  }

  /** Two listed channels `a` and `b`, the member set of `a` holding one
      entry and that of `b` none. As written, `a` is restored empty and the
      member shows up in `b`. */
  lemma HoistedNameMisroutesMembers(cfg: Config)
    ensures var r := RestoreAsWritten(Service(cfg, map[]), [GenKey(cfg, "a"), GenKey(cfg, "b")], [["s1:u1"], []]);
            && "a" in r.channels && "b" in r.channels
            && r.channels["a"].groups == map[]
            && r.channels["b"].groups == map["s1" := [Str("u1")]]
  {
    var entries := [GenKey(cfg, "a"), GenKey(cfg, "b")];
    var loads: seq<seq<string>> := [["s1:u1"], []];
    TwoListedNames(cfg);
    var names := NamesOf(cfg, entries);
    assert names[0] == "a" && names[|names| - 1] == "b";
    assert Flat(loads) == ["s1:u1"] by {
      assert Flat(loads[1..]) == [];
    }
    var r := RestoreAsWritten(Service(cfg, map[]), entries, loads);
    assert r.channels["a"] == NewChannel("a");
    assert r.channels["b"] == RestoreMembers(NewChannel("b"), ["s1:u1"]);
    RestoreOneEntry("b");
  }

  /** The same input through the corrected restore: `a` gets its member back
      and `b` stays empty. */
  lemma CorrectedRestoreKeepsMembersApart(cfg: Config)
    ensures var r := RestoreChannels(Service(cfg, map[]), [GenKey(cfg, "a"), GenKey(cfg, "b")], [["s1:u1"], []]);
            && "a" in r.channels && "b" in r.channels
            && r.channels["a"].groups == map["s1" := [Str("u1")]]
            && r.channels["b"].groups == map[]
  {
    var svc := Service(cfg, map[]);
    var entries := [GenKey(cfg, "a"), GenKey(cfg, "b")];
    var loads: seq<seq<string>> := [["s1:u1"], []];
    var names := NamesOf(cfg, entries);
    TwoListedNames(cfg);
    assert names[0] == "a" && names[1] == "b";
    RestoreChannelsRestoresEach(svc, entries, loads);
    var r := RestoreChannels(svc, entries, loads);
    assert r.channels["a"] == RestoreMembers(NewChannel("a"), loads[0]);
    assert r.channels["b"] == RestoreMembers(NewChannel("b"), loads[1]);
    RestoreOneEntry("a");
    assert RestoreMembers(NewChannel("b"), loads[1]) == NewChannel("b");
  }

  lemma TwoListedNames(cfg: Config)
    ensures NamesOf(cfg, [GenKey(cfg, "a"), GenKey(cfg, "b")]) == ["a", "b"]
  {
    ChannelNameRoundTrip(cfg, "a");
    ChannelNameRoundTrip(cfg, "b");
  }

  /** The channel-set load's result. */
  datatype Listing = LoadFailed(message: string) | Loaded(entries: seq<string>)

  datatype Started = Started(service: Service, reply: Reply)

  /** Whether `start` goes on to restore channels: a store is configured
      and the channel set loaded with at least one entry. */
  predicate Restores(svc: Service, listing: Listing) {
    svc.cfg.hasStore && listing.Loaded? && listing.entries != []
  }

  /** `start` as written: without a store, or with an empty channel set, the
      callback is invoked with no arguments; a failed channel-set load passes
      the error on; otherwise every listed channel is created afresh, all the
      member loads land in the channel of the last listed name, and the
      callback is invoked with no arguments (before the member loads
      complete). */
  function Start(svc: Service, listing: Listing, loads: seq<seq<string>>): (r: Started)
    requires listing.Loaded? ==> |loads| == |listing.entries|
    ensures !svc.cfg.hasStore ==> r == Started(svc, NoArgs)
    ensures svc.cfg.hasStore && listing.LoadFailed? ==> r == Started(svc, Error(listing.message))
    ensures r.reply.Error? <==> svc.cfg.hasStore && listing.LoadFailed?
    ensures !r.reply.Error? ==> r.reply == NoArgs
    ensures !Restores(svc, listing) ==> r.service == svc
    ensures r.service.cfg == svc.cfg
    ensures listing.Loaded? ==> forall n :: n in svc.channels && n !in NamesOf(svc.cfg, listing.entries) ==>
              n in r.service.channels && r.service.channels[n] == svc.channels[n]
    ensures Restores(svc, listing) ==>
              var names := NamesOf(svc.cfg, listing.entries);
              var last := names[|names| - 1];
              && last in r.service.channels
              && r.service.channels[last] == RestoreMembers(NewChannel(last), Flat(loads))
              && forall i :: 0 <= i < |names| && names[i] != last ==>
                   names[i] in r.service.channels && r.service.channels[names[i]] == NewChannel(names[i])
    ensures Restores(svc, listing) ==>
              var names := NamesOf(svc.cfg, listing.entries);
              forall i :: 0 <= i < |names| ==> names[i] in r.service.channels && UserAmount(r.service.channels[names[i]]) == 0
  {
    if !svc.cfg.hasStore then Started(svc, NoArgs)
    else match listing
      case LoadFailed(msg) => Started(svc, Error(msg))
      case Loaded(entries) =>
        if entries == [] then Started(svc, NoArgs)
        else
          var names := NamesOf(svc.cfg, entries);
          RestoredChannelCountsZero(names[|names| - 1], Flat(loads));
          Started(RestoreAsWritten(svc, entries, loads), NoArgs)
  }

  /** `start` with the corrected restore: the same replies, and with distinct
      channel names every listed channel holds exactly its own load's
      entries. */
  function StartCorrected(svc: Service, listing: Listing, loads: seq<seq<string>>): (r: Started)
    requires listing.Loaded? ==> |loads| == |listing.entries|
    ensures !svc.cfg.hasStore ==> r == Started(svc, NoArgs)
    ensures svc.cfg.hasStore && listing.LoadFailed? ==> r == Started(svc, Error(listing.message))
    ensures r.reply.Error? <==> svc.cfg.hasStore && listing.LoadFailed?
    ensures !r.reply.Error? ==> r.reply == NoArgs
    ensures !Restores(svc, listing) ==> r.service == svc
    ensures r.service.cfg == svc.cfg
    ensures listing.Loaded? ==> forall n :: n in svc.channels && n !in NamesOf(svc.cfg, listing.entries) ==>
              n in r.service.channels && r.service.channels[n] == svc.channels[n]
    ensures Restores(svc, listing) ==>
              var names := NamesOf(svc.cfg, listing.entries);
              (forall i, j :: 0 <= i < j < |names| ==> names[i] != names[j]) ==>
                forall i :: 0 <= i < |names| ==>
                  names[i] in r.service.channels && r.service.channels[names[i]] == RestoreMembers(NewChannel(names[i]), loads[i])
    ensures Restores(svc, listing) ==>
              var names := NamesOf(svc.cfg, listing.entries);
              forall i :: 0 <= i < |names| ==> names[i] in r.service.channels && UserAmount(r.service.channels[names[i]]) == 0
  {
    if !svc.cfg.hasStore then Started(svc, NoArgs)
    else match listing
      case LoadFailed(msg) => Started(svc, Error(msg))
      case Loaded(entries) =>
        if entries == [] then Started(svc, NoArgs)
        else
          RestoreChannelsRestoresEach(svc, entries, loads);
          Started(RestoreChannels(svc, entries, loads), NoArgs)
  }
}

=== FILE: store_keys.dfy ===
/** The membership store's key and value encodings and the store writes the
    service emits. Store writes are fire-and-forget: the model records them as
    a list of operations, empty when the service has no store. */
module StoreKeys {
  import opened JsValues

  /** What a channel needs from its owning service: the key prefix, the id of
      the local server process, and whether a store is configured. */
  datatype Config = Config(prefix: JsValue, serverId: string, hasStore: bool)

  datatype StoreOp =
    | Add(key: string, value: string)
    | Remove(key: string, value: string)
    | RemoveAll(key: string)

  /** One (server id, user id) pair, as kept in a channel's records and as
      encoded in a member-set entry. */
  datatype Member = Member(sid: JsValue, uid: JsValue)

  /** A store write is issued only when a store is configured. */
  function Emit(cfg: Config, op: StoreOp): seq<StoreOp> {
    if cfg.hasStore then [op] else []
  }

  /** The key of the set listing the channels of this server process. */
  function ChannelSetKey(cfg: Config): string {
    ToJsString(cfg.prefix) + ":" + cfg.serverId
  }

  /** `genKey(service, name)`: a falsy (empty) name gives the channel-set key,
      any other name the member-set key of that channel. */
  function GenKey(cfg: Config, name: string): string {
    if name == "" then ChannelSetKey(cfg) else ChannelSetKey(cfg) + ":" + name
  }

  /** `genValue(sid, uid)`: the member-set entry of one member. */
  function GenValue(sid: JsValue, uid: JsValue): string {
    ToJsString(sid) + ":" + ToJsString(uid)
  }

  /** The channel name restore reads off a channel-set entry: everything after
      the channel-set key and the following colon. */
  function ChannelNameOf(cfg: Config, entry: string): string {
    Slice(entry, |ChannelSetKey(cfg)| + 1)
  }

  /** The channel name is recovered from its member-set key for every name,
      the empty one included (its key is the channel-set key itself, whose
      slice past the end is empty). */
  lemma ChannelNameRoundTrip(cfg: Config, name: string)
    ensures ChannelNameOf(cfg, GenKey(cfg, name)) == name
  {
    var k := ChannelSetKey(cfg);
    if name != "" {
      assert GenKey(cfg, name) == (k + ":") + name;
      assert GenKey(cfg, name)[|k| + 1..] == name;
    }
  }

  /** Restore's decoding of a member-set entry: `split(':')`, the first piece
      as server id and the second, which is `undefined` when the entry holds
      no colon, as user id. Both come back as strings. */
  function DecodeMember(item: string): (m: Member)
    ensures m.sid == Str(Split(item, ':')[0])
    ensures ':' in item <==> m.uid.Str?
    ensures ':' in item ==> |Split(item, ':')| >= 2 && m.uid == Str(Split(item, ':')[1])
    ensures ':' !in item <==> m.uid == Undefined
    ensures ':' !in m.sid.s
    ensures m.uid.Str? ==> ':' !in m.uid.s
  {
    var parts := Split(item, ':');
    if ':' !in item then
      SplitWithoutSeparator(item, ':');
      Member(Str(parts[0]), Undefined)
    else
      Member(Str(parts[0]), Str(parts[1]))
  }

  /** Encoding then splitting gives back the two string forms, provided
      neither contains a colon. */
  lemma GenValueSplits(sid: JsValue, uid: JsValue)
    requires ':' !in ToJsString(sid) && ':' !in ToJsString(uid)
    ensures Split(GenValue(sid, uid), ':') == [ToJsString(sid), ToJsString(uid)]
  {
    SplitAtFirstSeparator(ToJsString(sid), ToJsString(uid), ':');
    SplitWithoutSeparator(ToJsString(uid), ':');
  }

  /** Decoding an encoded member yields the member with both ids in their
      string form; string ids therefore round-trip exactly. */
  lemma DecodeGenValue(sid: JsValue, uid: JsValue)
    requires ':' !in ToJsString(sid) && ':' !in ToJsString(uid)
    ensures DecodeMember(GenValue(sid, uid)) == Member(Str(ToJsString(sid)), Str(ToJsString(uid)))
    ensures sid.Str? && uid.Str? ==> DecodeMember(GenValue(sid, uid)) == Member(sid, uid)
  {
    GenValueSplits(sid, uid);
    assert ':' in GenValue(sid, uid) by {
      assert GenValue(sid, uid)[|ToJsString(sid)|] == ':';
    }
  }

  /** A numeric user id does not survive the store: it is restored as the
      string of its digits, which is not `===` to the number. */
  lemma NumericUidRestoresAsString()
    ensures DecodeMember(GenValue(Str("connector-1"), Num(42))).uid == Str("42")
    ensures DecodeMember(GenValue(Str("connector-1"), Num(42))).uid != Num(42)
  {
    assert ToJsString(Num(42)) == "42";
    DecodeGenValue(Str("connector-1"), Num(42));
  }
}
